=== FILE: README.md ===
# KUBI credit analysis and quest engine — a Dafny model

This project models the scoring and quest logic of the KUBI capstone, where a bank-data
snapshot (Plaid accounts and transactions) becomes two things:

- **A credit analysis.** `calculate_factors_from_plaid` derives five factors: payment history,
  credit utilization, account diversity, income stability and account age. Each factor has an
  impact, a percentage and a positive flag. The five impacts add up to an overall score, with a
  FICO-like equivalent and a 0–100 on-chain score. The analysis entry point `main` picks one of
  three JSON records to print:
  - the computed analysis;
  - a canned fallback when no data was loaded;
  - an error record, with exit status 1, when the scorer raises.
- **Quests.** The conversion script turns the Plaid snapshot into a "holistic" user record.
  `load_user_data` turns that record into a feature row and a creditworthiness label.
  `generate_quests` applies nine threshold rules to the row and returns the quests; the script's
  `main` then prints each quest as `- <text>`.
  The web endpoint runs the script and keeps, in order, the text after `- ` on each stdout line
  that starts with it.

Modules follow the program's structure:

| module | file | models |
|---|---|---|
| `Wrappers` | wrappers.dfy | `Option` for absent JSON keys, `Result` for the raise |
| `Sequences` | sequences.dfy | counting and summing list comprehensions |
| `Text` | text.dfy | ASCII `lower()`, substring search, `startswith` |
| `Plaid` | plaid.dfy | the Plaid JSON document and its `.get(key, default)` accessors |
| `RealArith` | real_arith.dfy | facts about real division and truncation used by the scorer |
| `CreditFactors` | credit_factors.dfy | `calculate_factors_from_plaid` |
| `AnalysisEntry` | analysis_entry.dfy | `main` of the analysis script |
| `Holistic` | holistic.dfy | the conversion script's feature extraction |
| `Quests` | quests.dfy | the `load_user_data` features and label, and `generate_quests` |
| `QuestLines` | quest_lines.dfy | printing quests as `- ` lines, and the endpoint's parser |
| `QuestPipeline` | quest_pipeline.dfy | end-to-end facts across conversion, loading, quests and parsing |

Some modelling choices:

- **Absent keys.** A key that may be absent is an `Option`, and `.get(k, d)` reads it with a
  default.
- **Raising lookups.** A lookup that raises `KeyError` in the source becomes a precondition:
  `t['amount']`, `t['category']` and `acc['balances']['current']`.
- **Numbers.** Amounts are `real`. Python's `int()` truncation of the non-negative quantities
  involved is `.Floor`.

Two behaviours of the code shape the model:

- **Undated transactions raise.** In get_analysis.py:105-106, the oldest date is the `min()` of
  the truthy `date` values. A non-empty transaction list in which no transaction has a truthy
  `date` leaves `min()` nothing to range over, so it raises `ValueError`. `main` catches it,
  prints the error record and exits with status 1. `CalculateFactors` returns
  `Failure(EmptyMinimum)` in exactly that case. `UndatedTransactionsRaise` shows it for one card
  and two undated transactions. `WorkedExample` scores the same data with dates.
- **Converted fields are recomputed.** The conversion writes `fast_food_spend` and
  `rent_paid_late`, but the loader recomputes both from the transactions' `category`. The written
  values never reach the quest rules; `FastFoodFieldIsRecomputed` shows a concrete case.

## Model

| member | source | states |
|---|---|---|
| Sequences.CountBy | xai_engine/get_analysis.py:63 | the length of a filtered list: never above the input length, and zero exactly when no element passes |
| Sequences.SumBySign | xai_engine/get_analysis.py:58-59 | a sum of zero terms is 0, and a sum of non-negative terms is non-negative |
| Text.Lower | xai_engine/get_analysis.py:99 | `lower()` keeps the length, maps each ASCII capital to its small letter (code + 32), leaves every other character unchanged, and leaves no capital behind |
| Text.Contains | xai_engine/get_analysis.py:99 | substring test `'income' in …`: true exactly when the pattern occurs at some position |
| Plaid.IsTruthy | xai_engine/get_analysis.py:172 | the loaded object is falsy exactly when it is the empty JSON object (for documents without JSON null; see "## Left out") |
| CreditFactors.PaymentHistoryScore | xai_engine/get_analysis.py:63-64 | on-time share in percent: between 0 and 100; 50 for no transactions; otherwise score × count = 100 × on-time count (the `min(100, …)` cap never bites) |
| CreditFactors.PaymentExcellentShare | xai_engine/get_analysis.py:124 | the payment note praises consistency (score ≥ 90) exactly when there are transactions and at least nine in ten are on time |
| CreditFactors.PaymentPositiveShare | xai_engine/get_analysis.py:121-123 | the factor is positive (impact ≥ 30) exactly when there are transactions and at least six in seven are on time |
| CreditFactors.PaymentPercentage | xai_engine/get_analysis.py:63-64 | for a non-empty list the truncated score is the integer quotient 100 × on-time count / transaction count |
| CreditFactors.PaymentHistoryFactor | xai_engine/get_analysis.py:119-125 | impact 0..35; percentage ⌊100 × on-time count / count⌋ for a non-empty list and 50 for none (impact 17); positive iff at least 6/7 of a non-empty list is on time; the note carries the on-time count and is the excellent one iff at least 9/10 of a non-empty list is on time |
| CreditFactors.PaymentImpactIsShare | xai_engine/get_analysis.py:64-65 | the impact equals the integer quotient 35 × on-time count / transaction count |
| CreditFactors.TotalCreditLimit | xai_engine/get_analysis.py:57-58 | no credit card gives a total limit of 0; card limits that are all non-negative give a non-negative total |
| CreditFactors.TotalCreditUsed | xai_engine/get_analysis.py:57-59 | used credit, the sum of absolute negative card balances, is never negative, and 0 when there is no credit card |
| CreditFactors.CreditTotalsAppend | xai_engine/get_analysis.py:57-59 | adding an account adds its limit, and its used amount, exactly when it is a credit card (and, for use, has a negative balance) |
| CreditFactors.Utilization | xai_engine/get_analysis.py:68 | utilization is non-negative; 0 when the total card limit is not positive; otherwise utilization × limit = 100 × used credit |
| CreditFactors.UtilizationBand | xai_engine/get_analysis.py:69-80 | the band table: score 100 iff u < 30, 80 iff 30 ≤ u < 50, 60 iff 50 ≤ u < 70, 40 iff u ≥ 70; impact is 3/10 of the score |
| CreditFactors.UtilizationFactor | xai_engine/get_analysis.py:126-132 | reported impact 0 iff utilization < 30, −6 iff 30..50, −12 iff 50..70, −18 iff ≥ 70; positive iff impact 0; percentage is the truncated utilization; the note is excellent iff impact 0, high iff −18, reduce otherwise, and shows the percentage |
| CreditFactors.UtilizationBandEdges | xai_engine/get_analysis.py:69-80 | higher utilization never earns a larger impact; exactly 30, 50 and 70 fall into the lower band |
| CreditFactors.UtilizationNotCapped | xai_engine/get_analysis.py:68 | utilization is not capped: a card 3× over its limit reports 300% |
| CreditFactors.AccountKinds | xai_engine/get_analysis.py:83 | a kind is in the set iff some account's subtype (or type, or '') equals it; at most one kind per account |
| CreditFactors.KindsAppend | xai_engine/get_analysis.py:83 | appending an account adds exactly its kind to the set |
| CreditFactors.RepeatedKindAddsNothing | xai_engine/get_analysis.py:83-84 | an account of an already-seen kind leaves the kinds unchanged |
| CreditFactors.NewKindAddsOne | xai_engine/get_analysis.py:83-84 | an account of an unseen kind raises the diversity count by exactly one |
| CreditFactors.DiversityBand | xai_engine/get_analysis.py:84-96 | the band table: score 100 iff ≥ 4 kinds, 80 iff 3, 60 iff 2, 40 iff ≤ 1; score is ten times the impact |
| CreditFactors.DiversityBandMonotone | xai_engine/get_analysis.py:84-96 | more kinds never lower the impact, and each extra kind adds at most 2 |
| CreditFactors.DiversityFactor | xai_engine/get_analysis.py:133-139 | reported impact 0 iff ≥ 4 kinds, −2 iff 3, −4 iff 2, −6 iff ≤ 1; percentage 10 × (impact + 10); positive iff at least 3 kinds; the note is excellent iff impact 0, good mix iff −2, add more iff ≤ −4, and carries the kind count |
| CreditFactors.IncomeStabilityFactor | xai_engine/get_analysis.py:140-146 | reported impact −5 with percentage 70, or −8 with percentage 50; positive iff some transaction mentions "income" in its category or exceeds 1000; the note says consistent iff positive |
| CreditFactors.AccountAgeFactor | xai_engine/get_analysis.py:147-153 | reported impact −3 with percentage 70, or −5 with percentage 50; positive iff there are transactions; the note says good length iff positive |
| CreditFactors.PreOffsetTotal | xai_engine/get_analysis.py:114-115 | the five pre-offset impacts sum to between 30 and 92 |
| CreditFactors.CalculateFactors | xai_engine/get_analysis.py:50-162 | raises exactly when transactions exist and none is dated; otherwise five factors in the fixed name order, no error field, vcCount 0 |
| CreditFactors.ScoreInvariants | xai_engine/get_analysis.py:156-162 | a computed score is a multiple of 10 in 300..920, ten times the reported impacts plus 65; on-chain score × 10 = score; FICO equivalent is ⌊0.85 × score⌋, in 255..782 |
| CreditFactors.ReportedImpactsSum | xai_engine/get_analysis.py:118-154 | the reported impacts are the pre-offset impacts less offsets totalling 65 |
| CreditFactors.EmptyDocumentScore | xai_engine/get_analysis.py:52-115 | an empty document scores 630, FICO 535, on-chain 63 |
| CreditFactors.WorkedExample | xai_engine/get_analysis.py:50-162 | one card at 30% plus two dated transactions, one negative: score 590, FICO 501, impacts 17, −6, −6, −8, −3 |
| CreditFactors.UndatedTransactionsRaise | xai_engine/get_analysis.py:105-106 | the same example without dates raises |
| CreditFactors.EmptyDateIsUndated | xai_engine/get_analysis.py:105-106 | an empty date string is falsy, so transactions dated only `""` make the scorer raise |
| CreditFactors.DiversityKeyFallsBackToType | xai_engine/get_analysis.py:83 | without a subtype the kind is the type, or `''` without either; a subtype wins over the type, so checking and plain depository are two kinds |
| RealArith.ScaledTotal | xai_engine/get_analysis.py:159-161 | `int(score / 10)` recovers the total and `int(score * 0.85)` lies in 255..782 |
| AnalysisEntry.FallbackAnalysis | xai_engine/get_analysis.py:176-218 | the canned record: score 674, FICO 720, on-chain 68, vcCount 0, no error; five factors in the fixed name order, each with the connect-your-bank note, positive exactly when its impact is positive; impacts 35, −20, 10, −10, 15 and percentages 92, 65, 60, 55, 70 |
| AnalysisEntry.ErrorAnalysis | xai_engine/get_analysis.py:236-251 | the error record: the fallback's score fields, the error, and one factor that is the fallback's payment-history factor with the error note |
| AnalysisEntry.Main | xai_engine/get_analysis.py:164-253 | missing or falsy data prints the fallback with status 0; truthy data the scorer accepts prints the computed analysis with status 0; status 1 exactly for truthy data whose scorer raises, and then the error record (for documents without JSON null; see "## Left out") |
| AnalysisEntry.FallbackIsDistinguishable | xai_engine/get_analysis.py:176-218 | whenever the scorer does not raise (the runs with exit status 0), score 674 occurs exactly for the fallback; every other output keeps on-chain × 10 = score and FICO = ⌊0.85 × score⌋, and the fallback breaks both |
| AnalysisEntry.EmptyObjectFallsBack | xai_engine/get_analysis.py:172 | `{}` is falsy and gets the fallback, while `{"accounts": []}` is scored (630) |
| Holistic.Convert | xai_engine/convert_plaid_to_holistic.py:13-30 | placeholders are fixed (utilization 0, payment history 1, ages 12, no scores, zero flags and incomes); transactions carried over; account counts bounded by the number of accounts; no transactions give income and fast-food spend 0, no accounts give balance 0 and all three counts 0 |
| Holistic.TransactionSumsAppend | xai_engine/convert_plaid_to_holistic.py:13-22 | a new transaction adds its amount to income iff primary category is INCOME, to fast food iff the lowered detailed category contains `fast_food` |
| Holistic.BalanceAppend | xai_engine/convert_plaid_to_holistic.py:14 | a new account adds its current balance iff it has balances |
| Holistic.AccountCountsAppend | xai_engine/convert_plaid_to_holistic.py:18-20 | a new account adds one to the credit count iff its subtype is `credit card`, to the loan count iff `loan`, to the new-account count iff its type is `depository` |
| Quests.Mean | xai_engine/train_and_generate_quests.py:32 | no values give 0; otherwise mean × count = sum |
| Quests.MeanAtLeast | xai_engine/train_and_generate_quests.py:32 | a non-empty mean is at least any lower bound of its values |
| Quests.LoadFeatures | xai_engine/train_and_generate_quests.py:17-37 | label is 0/1, and 1 iff payment history > 0.85 and utilization < 0.5; rent-late flag is 1 iff some Rent transaction is flagged paid late; fast-food spend is the sum of the 'Fast Food' amounts (0 when there are none); test-score average × count = sum, 0 for no scores; student and DAO flags are 0/1 from the booleans; utilization, payment history, commits and crypto and NFT income pass through |
| Quests.FastFoodAppend | xai_engine/train_and_generate_quests.py:17 | loading one more transaction keeps the record loadable and raises the fast-food spend by its amount exactly when its category is 'Fast Food' |
| Quests.Collect | xai_engine/train_and_generate_quests.py:43-62 | a quest is collected iff some rule for it fires |
| Quests.RulesRanked | xai_engine/train_and_generate_quests.py:44-61 | nine rules, one per quest, in source order; each fires iff its quest's condition holds |
| Quests.GenerateQuests | xai_engine/train_and_generate_quests.py:42-62 | a quest is produced iff its condition holds on the row |
| Quests.CollectInRuleOrder | xai_engine/train_and_generate_quests.py:43-62 | rules in strictly increasing order yield quests in that order |
| Quests.RanksBoundLength | xai_engine/train_and_generate_quests.py:42-62 | a strictly ordered quest list has at most nine entries |
| Quests.QuestsInRuleOrder | xai_engine/train_and_generate_quests.py:42-62 | output follows the rule order, has no duplicates and at most nine quests |
| Quests.ThresholdsAreStrict | xai_engine/train_and_generate_quests.py:44-60 | values exactly at the thresholds trigger none of the threshold quests |
| Quests.NoCreditQuestsMeansCreditworthy | xai_engine/train_and_generate_quests.py:37-51 | no utilization or payment-history quest implies label 1 |
| Quests.TestScoreQuest | xai_engine/train_and_generate_quests.py:32-53 | a student with no scores always gets the test-score quest; one whose scores are all ≥ 80 never does |
| QuestLines.FirstNewline | plaid_node/generate_quests_api.py:28 | finds the first line break, or reports there is none |
| QuestLines.SplitLines | plaid_node/generate_quests_api.py:28 | no split line contains a line break |
| QuestLines.RenderSplitLines | plaid_node/generate_quests_api.py:28 | printing the split lines gives the text back, with a line break added after an unterminated last line, so no text is lost |
| QuestLines.UnterminatedQuestLine | plaid_node/generate_quests_api.py:28-30 | output `- a` with no final line break still yields the quest `a` |
| QuestLines.Render | xai_engine/train_and_generate_quests.py:72-73 | printed lines are empty iff there are no lines, otherwise end in a line break, with at least one character per line |
| QuestLines.PrefixAll | xai_engine/train_and_generate_quests.py:73 | one line per quest, in order, each `- ` followed by the quest |
| QuestLines.PrintQuests | xai_engine/train_and_generate_quests.py:72-73 | printing quests is silent iff there are none, and otherwise starts with `- ` |
| QuestLines.KeepQuestLines | plaid_node/generate_quests_api.py:28-30 | one quest per `- ` line, each the remainder of such a line |
| QuestLines.ParseQuests | plaid_node/generate_quests_api.py:27-31 | at most one quest per output line, each prefixed by `- ` on some line; empty output yields none |
| QuestLines.RenderAppend | xai_engine/train_and_generate_quests.py:72-73 | printing two blocks of lines prints their concatenation |
| QuestLines.SplitRenderedLines | plaid_node/generate_quests_api.py:28 | splitting printed lines without breaks gives back the lines |
| QuestLines.KeepQuestLinesAppend | plaid_node/generate_quests_api.py:28-30 | the filter distributes over concatenation |
| QuestLines.NoQuestLines | plaid_node/generate_quests_api.py:29 | lines not starting with `- ` contribute nothing |
| QuestLines.PrefixAllKeepsLines | xai_engine/train_and_generate_quests.py:73 | prefixing `- ` adds no line break |
| QuestLines.KeepPrefixedLines | plaid_node/generate_quests_api.py:29-30 | stripping the prefix from prefixed lines returns the quests |
| QuestLines.PrintThenParse | plaid_node/generate_quests_api.py:27-31 | parsing a preamble plus printed quests returns exactly the quests, in order |
| QuestPipeline.QuestMessages | xai_engine/train_and_generate_quests.py:44-61 | the texts of a quest list, one per quest, in order |
| QuestPipeline.MessageIsPlainLine | xai_engine/train_and_generate_quests.py:45-61 | every quest text is a single line that does not start with `- ` |
| QuestPipeline.MessagesDistinct | xai_engine/train_and_generate_quests.py:45-61 | different quests have different texts |
| QuestPipeline.ReportRoundTrip | plaid_node/generate_quests_api.py:25-31 | the endpoint recovers the engine's quest texts, in order, from its output |
| QuestPipeline.PlaceholderQuests | xai_engine/convert_plaid_to_holistic.py:15-30 | a record with the conversion's placeholders gets GitHub, DAO, crypto and NFT quests, never the utilization, payment or test-score quests, and label 1 |
| QuestPipeline.ConvertedQuests | xai_engine/train_and_generate_quests.py:11-62 | for the row loaded from any converted Plaid document, `generate_quests` yields the GitHub, DAO, crypto and NFT quests and never the utilization, payment-history or test-score quests |
| QuestPipeline.FastFoodFieldIsRecomputed | xai_engine/train_and_generate_quests.py:17 | fast-food spend found only in the detailed Plaid category is dropped on loading and never raises the fast-food quest |

## Left out

- File and process I/O is left out. This covers reading the Plaid JSON, `sys.argv`, writing the
  holistic file, `glob` over user files, `subprocess` and printing to stderr. `Main` takes the
  loaded document, or `None` when loading failed.
- Load errors are not distinguished. `load_plaid_data` returns `None` on any error, which is
  modelled as `None`.
- The `total_balance` computed at get_analysis.py:56 is never used, so it is left out.
- JSON `null` is modelled as an absent key, but Python's `.get` returns `None` for a key that is
  present with value null. So for such input the model and the code part ways. In the scorer:
  - a null `accounts` or `transactions` leaves the object non-empty and so truthy, and iterating
    `None` raises `TypeError` at get_analysis.py:56 or :63. The model reads the null as absent:
    without other keys the document is the empty object, which `IsTruthy` finds falsy, so `Main`
    prints the fallback with status 0; with other keys the model scores the document;
  - a null `balances` makes `.get('current', 0)` raise `AttributeError` at get_analysis.py:56,
    while the model reads the balance as 0;
  - a null `amount` makes `tx.get('amount', 0) >= 0` raise `TypeError` at get_analysis.py:63;
  - a null `current` balance makes the `sum` at get_analysis.py:56 raise, and for a credit card
    also the comparison at get_analysis.py:59;
  - a null `limit` on a credit card makes the `sum` at get_analysis.py:58 raise;
  - in these five cases the code prints the error record and exits with status 1, while the
    model scores the document with 0 in place of the null or prints the fallback. So
    `AnalysisEntry.Main`'s "status 1 exactly when the scorer raises" and `Plaid.IsTruthy`'s
    "falsy exactly for the empty object" hold only for documents without JSON null;
  - a null `subtype` counts as the kind `None` at get_analysis.py:83, while the model falls
    back to `type`, so the diversity count can differ;
  - a null `type` on an account with no `subtype` also counts as the kind `None` at
    get_analysis.py:83, while the model counts it as `''`, so the diversity count can differ;
  - a null `category` is accepted by the loader at train_and_generate_quests.py:17-18 (it is
    neither 'Fast Food' nor 'Rent'), while `Loadable` excludes it along with a missing one.
- Other malformed JSON shapes are out of scope, such as a list where an object is expected or
  a non-numeric amount. The model promises nothing about a document holding JSON null anywhere.
  For documents without null or malformed shapes, the only raise in the scorer is the empty
  `min()`.
- Text.Lower: case-folds only the ASCII letters. Python's `lower()` is Unicode-aware and can
  change the length of a text (`'İ'.lower()` has two characters), so the length and
  per-character clauses hold for the model, not for every Python string.
- Only `\n` splits lines. `splitlines` also splits on `\r`, `\v`, `\f` and other separators. The
  quest texts contain none of them.
- The explanation strings are modelled as `Note` values that carry the interpolated numbers,
  not as formatted text. The error text `str(e)` is the `Failure` value.
- Floating point is replaced by exact reals. `np.mean` is modelled as the exact mean.
- Model training is left out, because it is statistical rather than logical. This covers the
  random forest, SHAP, `train_test_split` and the multi-row branch of `main` in
  train_and_generate_quests.py. So is the printing of the `Sample user features:` block, which
  the parser ignores; it is represented by an arbitrary preamble with no `- ` lines.
- QuestPipeline.ConvertedQuests: speaks of the row loaded from the converted record, not of what
  the endpoint returns. The loader globs only `holistic_user_data_user*.json`
  (train_and_generate_quests.py:12). The conversion names its file after `user_id`, which
  defaults to `unknown`, and such a file is never loaded. With several matching files `main`
  takes the multi-row branch, which prints the quests of a row drawn by `train_test_split`,
  not necessarily the converted one.
- Loader `KeyError` paths are preconditions (`Loadable`), not modelled failures. Those paths
  are a missing `amount` on a fast-food transaction and a missing `category`.
- Conversion `KeyError` paths are preconditions (`ConvertibleDocument`), not modelled failures.
  There are two: a missing `amount` on an INCOME or fast-food transaction
  (convert_plaid_to_holistic.py:13, :22), and a missing `current` on an account that has
  `balances` (:14). The conversion also raises on nulls that the model reads as absent keys, and
  for these `Convert` returns a record instead:
  - a null `personal_finance_category` makes `.get` raise `AttributeError` at :13 and :22;
  - a null `detailed` makes `.lower()` raise `AttributeError` at :22;
  - a null `balances` that is present as a key makes the subscript at :14 raise `TypeError`;
  - a null `transactions` or `accounts` makes the iteration at :13 or :14 raise `TypeError`.
- The Flask routing, API-key check and JSON responses of generate_quests_api.py are glue and are
  left out. So are the other endpoints and scripts: the verifiable-credential API, the synthetic
  data generators, `analyze_plaid_data` and `credit_xai`.
- The conversion's `user_id` is left out of `Convert`, because it only names the output file.
- Holistic.Convert: its contract states the placeholders, the count bounds and the values for no
  transactions and no accounts. It does not give a closed form for the sums and counts; the
  empty-input clauses together with `TransactionSumsAppend`, `BalanceAppend` and
  `AccountCountsAppend` fix them by induction on the lists.

=== FILE: analysis_entry.dfy ===
/** The command-line entry point of the analysis, reduced to its decision: the fixed
    fallback when no data was loaded, the computed analysis, or the error record
    with exit status 1 when scoring raises. Reading files and printing are not modelled. */
module AnalysisEntry {
  import opened Wrappers
  import opened Plaid
  import opened CreditFactors

  /** What one run prints to standard output, and its exit status. */
  datatype Run = Run(output: Analysis, exitStatus: int)

  /** The canned analysis printed when no Plaid data is available. */
  function FallbackAnalysis(): (a: Analysis)
    ensures a.score == 674 && a.ficoEquivalent == 720 && a.onChainScore == 68 && a.vcCount == 0 && a.error.None?
    ensures |a.factors| == 5 && forall i :: 0 <= i < 5 ==> a.factors[i].name == FactorOrder[i]
    ensures forall i :: 0 <= i < 5 ==> a.factors[i].note == ConnectBankAccount
    ensures forall i :: 0 <= i < 5 ==> (a.factors[i].positive <==> a.factors[i].impact > 0)
    ensures [a.factors[0].impact, a.factors[1].impact, a.factors[2].impact, a.factors[3].impact, a.factors[4].impact]
      == [35, -20, 10, -10, 15]
    ensures [a.factors[0].percentage, a.factors[1].percentage, a.factors[2].percentage, a.factors[3].percentage,
      a.factors[4].percentage] == [92, 65, 60, 55, 70]
  {
    Analysis(
      674,
      [ Factor(PaymentHistoryName, 35, 92, true, ConnectBankAccount),
        Factor(CreditUtilizationName, -20, 65, false, ConnectBankAccount),
        Factor(AccountDiversityName, 10, 60, true, ConnectBankAccount),
        Factor(IncomeStabilityName, -10, 55, false, ConnectBankAccount),
        Factor(AccountAgeName, 15, 70, true, ConnectBankAccount) ],
      720, 0, 68, None)
  }

  /** The record printed when scoring raises: the fallback's score fields, one factor, and the error. */
  function ErrorAnalysis(failure: Failure): (a: Analysis)
    ensures a.error == Some(failure)
    ensures a.score == 674 && a.ficoEquivalent == 720 && a.onChainScore == 68 && a.vcCount == 0
    ensures |a.factors| == 1 && a.factors[0].name == PaymentHistoryName && a.factors[0].note == AnalysisError(failure)
    ensures a.factors[0] == FallbackAnalysis().factors[0].(note := AnalysisError(failure))
  {
    Analysis(674, [Factor(PaymentHistoryName, 35, 92, true, AnalysisError(failure))], 720, 0, 68, Some(failure))
  }

  /** One run, given what the loader returned (`None` when no file could be read). */
  function Main(loaded: Option<PlaidDocument>): (run: Run)
    ensures run.exitStatus == 0 || run.exitStatus == 1
    ensures run.exitStatus == 1 <==> loaded.Some? && IsTruthy(loaded.value) && LacksDates(TransactionsOf(loaded.value))
    ensures run.exitStatus == 1 ==> |run.output.factors| == 1 && run.output.score == 674 && run.output.error.Some?
    ensures run.exitStatus == 0 ==> run.output.error.None? && |run.output.factors| == 5
    ensures run.exitStatus == 0 ==> forall i :: 0 <= i < 5 ==> run.output.factors[i].name == FactorOrder[i]
    ensures (loaded.None? || !IsTruthy(loaded.value)) ==> run == Run(FallbackAnalysis(), 0)
    ensures loaded.Some? && IsTruthy(loaded.value) && !LacksDates(TransactionsOf(loaded.value)) ==>
      run == Run(CalculateFactors(loaded.value).value, 0)
    ensures run.exitStatus == 1 ==> run.output == ErrorAnalysis(EmptyMinimum)
  {
    match loaded
    case None => Run(FallbackAnalysis(), 0)
    case Some(doc) =>
      if !IsTruthy(doc) then Run(FallbackAnalysis(), 0)
      else
        match CalculateFactors(doc)
        case Success(analysis) => Run(analysis, 0)
        case Failure(e) => Run(ErrorAnalysis(e), 1)
  }

  /** A computed score is a multiple of ten, so among runs whose scorer does not raise (the runs
      that exit with status 0) the score 674 marks the fallback exactly; the fallback also breaks
      the computed relations between score, ficoEquivalent and onChainScore. */
  lemma FallbackIsDistinguishable(loaded: Option<PlaidDocument>)
    requires loaded.Some? && IsTruthy(loaded.value) ==> !LacksDates(TransactionsOf(loaded.value))
    ensures Main(loaded).output.score == 674 <==> Main(loaded).output == FallbackAnalysis()
    ensures Main(loaded).output != FallbackAnalysis() ==>
      && Main(loaded).output.onChainScore * 10 == Main(loaded).output.score
      && Main(loaded).output.ficoEquivalent == (Main(loaded).output.score as real * 0.85).Floor
    ensures FallbackAnalysis().onChainScore * 10 != FallbackAnalysis().score
    ensures FallbackAnalysis().ficoEquivalent != (674.0 * 0.85).Floor
  {
    FallbackBreaksRelations();
    if loaded.Some? && IsTruthy(loaded.value) {
      assert Main(loaded).output == CalculateFactors(loaded.value).value;
      ScoreInvariants(loaded.value);
    } else {
      assert Main(loaded).output == FallbackAnalysis();
    }
  }

  lemma FallbackBreaksRelations()
    ensures FallbackAnalysis().onChainScore * 10 != FallbackAnalysis().score
    ensures FallbackAnalysis().ficoEquivalent != (674.0 * 0.85).Floor
  {
    assert 572.0 <= 674.0 * 0.85 < 573.0;
  }

  /** An empty JSON object is treated like missing data: the fallback, with success status. */
  lemma EmptyObjectFallsBack()
    ensures Main(Some(PlaidDocument(None, None, false))) == Run(FallbackAnalysis(), 0)
    ensures Main(Some(PlaidDocument(Some([]), None, false))).output.score == 630
  {
    EmptyDocumentScore();
    assert TransactionsOf(PlaidDocument(Some([]), None, false)) == [];
    assert AccountsOf(PlaidDocument(Some([]), None, false)) == [];
  }
}

=== FILE: credit_factors.dfy ===
/** The credit-factor scorer: five weighted or banded rules over a user's accounts
    and transactions, reported as five factors in a fixed order plus an overall score. */
module CreditFactors {
  import opened Wrappers
  import opened Sequences
  import opened Text
  import opened Plaid
  import opened RealArith

  const PaymentHistoryName: string := "Payment History"
  const CreditUtilizationName: string := "Credit Utilization"
  const AccountDiversityName: string := "Account Diversity"
  const IncomeStabilityName: string := "Income Stability"
  const AccountAgeName: string := "Account Age"

  /** The factor names in the order every result lists them. */
  const FactorOrder: seq<string> :=
    [PaymentHistoryName, CreditUtilizationName, AccountDiversityName, IncomeStabilityName, AccountAgeName]

  /** A rule's band: its display score and its contribution (impact) before any offset. */
  datatype Band = Band(score: int, impact: int)

  /** The exception scoring can raise: `min()` over no dated transaction (a ValueError). */
  datatype Failure = EmptyMinimum

  /** Which branch of a factor's explanation text was chosen; the text itself is not modelled. */
  datatype Note =
    | PaymentExcellent(positiveCount: nat)
    | PaymentGood(positiveCount: nat)
    | UtilizationExcellent(shown: int)
    | UtilizationReduce(shown: int)
    | UtilizationHigh(shown: int)
    | DiversityExcellent(kinds: nat)
    | DiversityAddMore(kinds: nat)
    | DiversityGoodMix(kinds: nat)
    | IncomeConsistent
    | IncomeVaries
    | AgeGood
    | AgeNewer
    | ConnectBankAccount
    | AnalysisError(failure: Failure)

  datatype Factor = Factor(name: string, impact: int, percentage: int, positive: bool, note: Note)

  /** The JSON object the analysis prints; `error` is present only on the error record. */
  datatype Analysis = Analysis(
    score: int,
    factors: seq<Factor>,
    ficoEquivalent: int,
    vcCount: int,
    onChainScore: int,
    error: Option<Failure>)

  /** `int((score / 100) * weight)`, the truncation of a weighted share. */
  function WeightedImpact(score: real, weight: nat): int
  {
    (score / 100.0 * weight as real).Floor
  }

  // ---------------------------------------------------------------- payment history (weight 35)

  /** A transaction with a non-negative amount counts as on time. */
  predicate IsOnTime(t: Transaction)
  {
    AmountOr0(t) >= 0.0
  }

  function OnTimeCount(txs: seq<Transaction>): nat
  {
    CountBy(txs, IsOnTime)
  }

  /** The on-time share as a percentage; 50 when there are no transactions. */
  function PaymentHistoryScore(txs: seq<Transaction>): (s: real)
    ensures 0.0 <= s <= 100.0
    ensures |txs| == 0 ==> s == 50.0
    ensures |txs| > 0 ==> s * |txs| as real == 100.0 * OnTimeCount(txs) as real
  {
    if |txs| == 0 then 50.0
    else
      var denominator := if 1 < |txs| then |txs| else 1;
      var ratio := OnTimeCount(txs) as real / denominator as real;
      ShareBetweenZeroAndOne(OnTimeCount(txs) as real, denominator as real);
      QuotientTimesDivisor(OnTimeCount(txs) as real, denominator as real);
      var share := ratio * 100.0;
      assert share * |txs| as real == 100.0 * (ratio * denominator as real);
      if share < 100.0 then share else 100.0
  }

  /** The payment-history factor is positive exactly when at least six in seven transactions are on time. */
  lemma PaymentPositiveShare(txs: seq<Transaction>)
    ensures WeightedImpact(PaymentHistoryScore(txs), 35) >= 30 <==> |txs| > 0 && 7 * OnTimeCount(txs) >= 6 * |txs|
  {
    var s := PaymentHistoryScore(txs);
    assert WeightedImpact(s, 35) >= 30 <==> 7.0 * s >= 600.0;
    if |txs| > 0 {
      SixSevenths(s, |txs| as real, OnTimeCount(txs) as real);
    }
  }

  /** The payment note praises consistency exactly when at least nine in ten transactions are on time. */
  lemma PaymentExcellentShare(txs: seq<Transaction>)
    ensures PaymentHistoryScore(txs) >= 90.0 <==> |txs| > 0 && 10 * OnTimeCount(txs) >= 9 * |txs|
  {
    if |txs| > 0 {
      NineTenths(PaymentHistoryScore(txs), |txs| as real, OnTimeCount(txs) as real);
    }
  }

  /** The displayed percentage is the on-time share in whole percent, rounded down. */
  lemma PaymentPercentage(txs: seq<Transaction>)
    ensures |txs| > 0 ==> PaymentHistoryScore(txs).Floor == 100 * OnTimeCount(txs) / |txs|
  {
    if |txs| > 0 {
      FloorOfExactShare(PaymentHistoryScore(txs), 100 * OnTimeCount(txs), |txs|);
    }
  }

  function PaymentHistoryFactor(txs: seq<Transaction>): (f: Factor)
    ensures f.name == PaymentHistoryName
    ensures 0 <= f.impact <= 35 && 0 <= f.percentage <= 100
    ensures |txs| > 0 ==> f.percentage == 100 * OnTimeCount(txs) / |txs|
    ensures f.positive <==> |txs| > 0 && 7 * OnTimeCount(txs) >= 6 * |txs|
    ensures |txs| == 0 ==> f.impact == 17 && f.percentage == 50
    ensures (f.note.PaymentExcellent? || f.note.PaymentGood?) && f.note.positiveCount == OnTimeCount(txs)
    ensures f.note.PaymentExcellent? <==> |txs| > 0 && 10 * OnTimeCount(txs) >= 9 * |txs|
  {
    var s := PaymentHistoryScore(txs);
    PaymentExcellentShare(txs);
    var impact := WeightedImpact(s, 35);
    var count := OnTimeCount(txs);
    PaymentPositiveShare(txs);
    PaymentPercentage(txs);
    Factor(PaymentHistoryName, impact, s.Floor, impact >= 30,
      if s >= 90.0 then PaymentExcellent(count) else PaymentGood(count))
  }

  /** The payment-history impact is 35 times the on-time share, rounded down. */
  lemma PaymentImpactIsShare(txs: seq<Transaction>)
    requires |txs| > 0
    ensures PaymentHistoryFactor(txs).impact == 35 * OnTimeCount(txs) / |txs|
  {
    WeightedShare(txs);
    assert PaymentHistoryFactor(txs).impact == WeightedImpact(PaymentHistoryScore(txs), 35);
  }

  /** The arithmetic behind `PaymentImpactIsShare`: 35 % of the exact on-time percentage, truncated. */
  lemma WeightedShare(txs: seq<Transaction>)
    requires |txs| > 0
    ensures WeightedImpact(PaymentHistoryScore(txs), 35) == 35 * OnTimeCount(txs) / |txs|
  {
    var s := PaymentHistoryScore(txs);
    var n := |txs| as real;
    var k := OnTimeCount(txs);
    var x := (35 * k) as real / n;
    QuotientTimesDivisor((35 * k) as real, n);
    assert s / 100.0 * 35.0 * n == x * n;
    ScaleCompare(s / 100.0 * 35.0, x, n);
    ScaleCompare(x, s / 100.0 * 35.0, n);
    FloorOfQuotient(35 * k, |txs|);
  }

  // ---------------------------------------------------------------- credit utilization (weight 30)

  function CreditLimitPart(a: Account): real
  {
    if IsCreditCard(a) then LimitOr0(a) else 0.0
  }

  function CreditUsedPart(a: Account): real
  {
    if IsCreditCard(a) && CurrentOr0(a) < 0.0 then -CurrentOr0(a) else 0.0
  }

  /** Sum of the limits of the credit-card accounts. */
  function TotalCreditLimit(accounts: seq<Account>): (limit: real)
    ensures (forall i :: 0 <= i < |accounts| ==> !IsCreditCard(accounts[i])) ==> limit == 0.0
    ensures (forall i :: 0 <= i < |accounts| ==> IsCreditCard(accounts[i]) ==> LimitOr0(accounts[i]) >= 0.0)
            ==> limit >= 0.0
  {
    SumBySign(accounts, CreditLimitPart);
    SumBy(accounts, CreditLimitPart)
  }

  /** Sum of the absolute balances of credit-card accounts that are below zero. */
  function TotalCreditUsed(accounts: seq<Account>): (used: real)
    ensures used >= 0.0
    ensures (forall i :: 0 <= i < |accounts| ==> !IsCreditCard(accounts[i])) ==> used == 0.0
  {
    SumBySign(accounts, CreditUsedPart);
    SumBy(accounts, CreditUsedPart)
  }

  /** Credit used as a percentage of the credit limit; 0 when the limit is not positive. Not capped. */
  function Utilization(accounts: seq<Account>): (u: real)
    ensures u >= 0.0
    ensures TotalCreditLimit(accounts) <= 0.0 ==> u == 0.0
    ensures TotalCreditLimit(accounts) > 0.0 ==> u * TotalCreditLimit(accounts) == 100.0 * TotalCreditUsed(accounts)
  {
    var limit := TotalCreditLimit(accounts);
    if limit > 0.0 then TotalCreditUsed(accounts) / limit * 100.0 else 0.0
  }

  function UtilizationBand(u: real): (b: Band)
    ensures b.score in {100, 80, 60, 40}
    ensures 10 * b.impact == 3 * b.score
    ensures b.score == 100 <==> u < 30.0
    ensures b.score == 80 <==> 30.0 <= u < 50.0
    ensures b.score == 60 <==> 50.0 <= u < 70.0
    ensures b.score == 40 <==> 70.0 <= u
  {
    if u < 30.0 then Band(100, 30)
    else if u < 50.0 then Band(80, 24)
    else if u < 70.0 then Band(60, 18)
    else Band(40, 12)
  }

  function UtilizationFactor(accounts: seq<Account>): (f: Factor)
    ensures f.name == CreditUtilizationName
    ensures f.impact in {0, -6, -12, -18}
    ensures f.positive <==> f.impact == 0
    ensures f.positive <==> Utilization(accounts) < 30.0
    ensures f.impact == -6 <==> 30.0 <= Utilization(accounts) < 50.0
    ensures f.impact == -12 <==> 50.0 <= Utilization(accounts) < 70.0
    ensures f.impact == -18 <==> 70.0 <= Utilization(accounts)
    ensures f.percentage >= 0 && f.percentage == Utilization(accounts).Floor
    ensures f.note.UtilizationExcellent? <==> f.impact == 0
    ensures f.note.UtilizationReduce? <==> f.impact == -6 || f.impact == -12
    ensures f.note.UtilizationHigh? <==> f.impact == -18
    ensures (f.note.UtilizationExcellent? || f.note.UtilizationReduce? || f.note.UtilizationHigh?) && f.note.shown == f.percentage
  {
    var u := Utilization(accounts);
    var band := UtilizationBand(u);
    var shown := u.Floor;
    Factor(CreditUtilizationName, band.impact - 30, if u > 0.0 then u.Floor else 0, u < 30.0,
      if u < 30.0 then UtilizationExcellent(shown)
      else if u < 70.0 then UtilizationReduce(shown)
      else UtilizationHigh(shown))
  }

  /** Only credit-card accounts count toward the limit, and only overdrawn ones toward the amount used,
      each by the absolute value of its balance. */
  lemma CreditTotalsAppend(accounts: seq<Account>, a: Account)
    ensures TotalCreditLimit(accounts + [a]) == TotalCreditLimit(accounts) + (if IsCreditCard(a) then LimitOr0(a) else 0.0)
    ensures TotalCreditUsed(accounts + [a]) == TotalCreditUsed(accounts)
      + (if IsCreditCard(a) && CurrentOr0(a) < 0.0 then -CurrentOr0(a) else 0.0)
  {
    SumByAppend(accounts, [a], CreditLimitPart);
    SumByAppend(accounts, [a], CreditUsedPart);
    assert SumBy([a], CreditLimitPart) == CreditLimitPart(a) + SumBy([a][1..], CreditLimitPart);
    assert SumBy([a], CreditUsedPart) == CreditUsedPart(a) + SumBy([a][1..], CreditUsedPart);
  }

  /** The bands are closed below: 30, 50 and 70 fall into the next worse band, and a higher
      utilization never earns a larger impact. */
  lemma UtilizationBandEdges(u: real, v: real)
    requires u <= v
    ensures UtilizationBand(v).impact <= UtilizationBand(u).impact
    ensures UtilizationBand(30.0) == Band(80, 24)
    ensures UtilizationBand(50.0) == Band(60, 18)
    ensures UtilizationBand(70.0) == Band(40, 12)
  {
  }

  /** The utilization percentage is not capped at 100: 300 used against a 100 limit reports 300. */
  lemma UtilizationNotCapped()
    ensures UtilizationFactor([Account(Some(Balances(Some(-300.0), Some(100.0))), Some("credit card"), None)]).percentage == 300
  {
    var a := Account(Some(Balances(Some(-300.0), Some(100.0))), Some("credit card"), None);
    CreditTotalsAppend([], a);
    assert [] + [a] == [a];
  }

  // ---------------------------------------------------------------- account diversity (weight 10)

  /** `acc.get('subtype', acc.get('type', ''))` */
  function DiversityKey(a: Account): string
  {
    match a.subtype
    case Some(s) => s
    case None => a.accountType.GetOr("")
  }

  /** The set of distinct account kinds. */
  function AccountKinds(accounts: seq<Account>): (kinds: set<string>)
    ensures forall k :: k in kinds <==> exists i :: 0 <= i < |accounts| && DiversityKey(accounts[i]) == k
    ensures |kinds| <= |accounts|
  {
    if |accounts| == 0 then {}
    else
      var rest := AccountKinds(accounts[1..]);
      assert forall i :: 0 <= i < |accounts[1..]| ==> accounts[1..][i] == accounts[i + 1];
      {DiversityKey(accounts[0])} + rest
  }

  function DiversityBand(count: nat): (b: Band)
    ensures b.score in {100, 80, 60, 40}
    ensures b.score == 10 * b.impact
    ensures b.score == 100 <==> count >= 4
    ensures b.score == 80 <==> count == 3
    ensures b.score == 60 <==> count == 2
    ensures b.score == 40 <==> count <= 1
  {
    if count >= 4 then Band(100, 10)
    else if count == 3 then Band(80, 8)
    else if count == 2 then Band(60, 6)
    else Band(40, 4)
  }

  function DiversityFactor(accounts: seq<Account>): (f: Factor)
    ensures f.name == AccountDiversityName
    ensures f.impact in {0, -2, -4, -6}
    ensures f.percentage == 10 * (f.impact + 10)
    ensures f.positive <==> f.impact >= -2
    ensures f.positive <==> |AccountKinds(accounts)| >= 3
    ensures f.impact == 0 <==> |AccountKinds(accounts)| >= 4
    ensures f.impact == -2 <==> |AccountKinds(accounts)| == 3
    ensures f.impact == -4 <==> |AccountKinds(accounts)| == 2
    ensures f.impact == -6 <==> |AccountKinds(accounts)| <= 1
    ensures |accounts| <= 1 ==> f.impact == -6
    ensures f.note.DiversityExcellent? <==> f.impact == 0
    ensures f.note.DiversityGoodMix? <==> f.impact == -2
    ensures f.note.DiversityAddMore? <==> f.impact <= -4
    ensures (f.note.DiversityExcellent? || f.note.DiversityGoodMix? || f.note.DiversityAddMore?) && f.note.kinds == |AccountKinds(accounts)|
  {
    var count := |AccountKinds(accounts)|;
    var band := DiversityBand(count);
    Factor(AccountDiversityName, band.impact - 10, band.score, count >= 3,
      if count >= 4 then DiversityExcellent(count)
      else if count < 3 then DiversityAddMore(count)
      else DiversityGoodMix(count))
  }

  /** Appending an account adds its kind to the kinds seen so far. */
  lemma KindsAppend(accounts: seq<Account>, a: Account)
    ensures AccountKinds(accounts + [a]) == AccountKinds(accounts) + {DiversityKey(a)}
  {
    var both := accounts + [a];
    forall k | k in AccountKinds(both) ensures k in AccountKinds(accounts) + {DiversityKey(a)} {
      var i :| 0 <= i < |both| && DiversityKey(both[i]) == k;
      if i < |accounts| {
        assert both[i] == accounts[i];
      }
    }
    forall k | k in AccountKinds(accounts) ensures k in AccountKinds(both) {
      var i :| 0 <= i < |accounts| && DiversityKey(accounts[i]) == k;
      assert both[i] == accounts[i];
    }
    assert both[|accounts|] == a;
  }

  /** An account whose kind is already present does not change the diversity count. */
  lemma RepeatedKindAddsNothing(accounts: seq<Account>, a: Account)
    requires exists i :: 0 <= i < |accounts| && DiversityKey(accounts[i]) == DiversityKey(a)
    ensures AccountKinds(accounts + [a]) == AccountKinds(accounts)
  {
    var j :| 0 <= j < |accounts| && DiversityKey(accounts[j]) == DiversityKey(a);
    KindPresent(accounts, j);
    KindsAppend(accounts, a);
  }

  /** An account of a kind not yet present adds exactly that kind, so the count grows by one. */
  lemma NewKindAddsOne(accounts: seq<Account>, a: Account)
    requires forall i :: 0 <= i < |accounts| ==> DiversityKey(accounts[i]) != DiversityKey(a)
    ensures AccountKinds(accounts + [a]) == AccountKinds(accounts) + {DiversityKey(a)}
    ensures |AccountKinds(accounts + [a])| == |AccountKinds(accounts)| + 1
  {
    KindsAppend(accounts, a);
    KindAbsent(accounts, DiversityKey(a));
  }

  lemma KindPresent(accounts: seq<Account>, j: nat)
    requires j < |accounts|
    ensures DiversityKey(accounts[j]) in AccountKinds(accounts)
  {
  }

  lemma KindAbsent(accounts: seq<Account>, d: string)
    requires forall i :: 0 <= i < |accounts| ==> DiversityKey(accounts[i]) != d
    ensures d !in AccountKinds(accounts)
  {
  }

  /** More kinds never earn a smaller diversity impact. */
  lemma DiversityBandMonotone(m: nat, n: nat)
    requires m <= n
    ensures DiversityBand(m).impact <= DiversityBand(n).impact
    ensures DiversityBand(n).impact - DiversityBand(m).impact <= 2 * (n - m)
  {
  }

  // ---------------------------------------------------------------- income stability (weight 15)

  /** A transaction whose lower-cased category mentions "income", or whose amount exceeds 1000. */
  predicate IsIncomeTransaction(t: Transaction)
  {
    Contains(Lower(CategoryText(t)), "income") || AmountOr0(t) > 1000.0
  }

  function IncomeStabilityScore(txs: seq<Transaction>): int
  {
    if CountBy(txs, IsIncomeTransaction) > 0 then 70 else 50
  }

  function IncomeStabilityFactor(txs: seq<Transaction>): (f: Factor)
    ensures f.name == IncomeStabilityName
    ensures f.impact == -5 || f.impact == -8
    ensures f.positive <==> f.impact == -5
    ensures f.positive <==> exists i :: 0 <= i < |txs| && IsIncomeTransaction(txs[i])
    ensures f.percentage == (if f.positive then 70 else 50)
    ensures f.note == (if f.positive then IncomeConsistent else IncomeVaries)
  {
    var s := IncomeStabilityScore(txs);
    var impact := WeightedImpact(s as real, 15);
    Factor(IncomeStabilityName, impact - 15, s, s >= 70, if s >= 70 then IncomeConsistent else IncomeVaries)
  }

  // ---------------------------------------------------------------- account age (weight 10)

  /** `tx.get('date')` is truthy: present and non-empty. */
  predicate IsDated(t: Transaction)
  {
    t.date.Some? && |t.date.value| > 0
  }

  function AccountAgeBand(txs: seq<Transaction>): Band
  {
    if |txs| > 0 then Band(70, 7) else Band(50, 5)
  }

  function AccountAgeFactor(txs: seq<Transaction>): (f: Factor)
    ensures f.name == AccountAgeName
    ensures f.impact == -3 || f.impact == -5
    ensures f.positive <==> f.impact == -3
    ensures f.positive <==> |txs| > 0
    ensures f.percentage == (if f.positive then 70 else 50)
    ensures f.note == (if f.positive then AgeGood else AgeNewer)
  {
    var band := AccountAgeBand(txs);
    Factor(AccountAgeName, band.impact - 10, band.score, band.score >= 70,
      if band.score >= 70 then AgeGood else AgeNewer)
  }

  // ---------------------------------------------------------------- overall

  /** The sum of the five pre-offset impacts; between 30 and 92 whatever the data. */
  function PreOffsetTotal(accounts: seq<Account>, txs: seq<Transaction>): (total: int)
    ensures 30 <= total <= 92
  {
    assert IncomeStabilityScore(txs) == 70 || IncomeStabilityScore(txs) == 50;
    assert |txs| == 0 ==> WeightedImpact(PaymentHistoryScore(txs), 35) == 17;
    WeightedImpact(PaymentHistoryScore(txs), 35)
    + UtilizationBand(Utilization(accounts)).impact
    + DiversityBand(|AccountKinds(accounts)|).impact
    + WeightedImpact(IncomeStabilityScore(txs) as real, 15)
    + AccountAgeBand(txs).impact
  }

  /** Transactions exist but none carries a date, so the oldest-date `min()` has nothing to range over. */
  predicate LacksDates(txs: seq<Transaction>)
  {
    |txs| > 0 && !exists i :: 0 <= i < |txs| && IsDated(txs[i])
  }

  /** The five factors in the order the scorer lists them. */
  function FactorList(accounts: seq<Account>, txs: seq<Transaction>): (fs: seq<Factor>)
    ensures |fs| == 5 && forall i :: 0 <= i < 5 ==> fs[i].name == FactorOrder[i]
  {
    [ PaymentHistoryFactor(txs), UtilizationFactor(accounts), DiversityFactor(accounts),
      IncomeStabilityFactor(txs), AccountAgeFactor(txs) ]
  }

  /** The scorer. It fails exactly when the oldest-date `min()` would raise. */
  function CalculateFactors(doc: PlaidDocument): (r: Result<Analysis, Failure>)
    ensures r.Failure? <==> LacksDates(TransactionsOf(doc))
    ensures r.Success? ==> |r.value.factors| == 5
    ensures r.Success? ==> forall i :: 0 <= i < 5 ==> r.value.factors[i].name == FactorOrder[i]
    ensures r.Success? ==> r.value.error.None? && r.value.vcCount == 0
  {
    var accounts := AccountsOf(doc);
    var txs := TransactionsOf(doc);
    if |txs| > 0 && CountBy(txs, IsDated) == 0 then Failure(EmptyMinimum)
    else
      var overall := PreOffsetTotal(accounts, txs) * 10;
      Success(Analysis(
        overall,
        FactorList(accounts, txs),
        (overall as real * 0.85).Floor,
        0,
        (overall as real / 10.0).Floor,
        None))
  }

  /** The overall score is ten times the sum of the pre-offset impacts: ten times the reported
      impacts plus their offsets (30 + 10 + 15 + 10), a multiple of 10 between 300 and 920. */
  lemma ScoreInvariants(doc: PlaidDocument)
    requires !LacksDates(TransactionsOf(doc))
    ensures var a := CalculateFactors(doc).value;
      && a.score % 10 == 0
      && 300 <= a.score <= 920
      && a.onChainScore * 10 == a.score
      && a.score == 10 * (a.factors[0].impact + a.factors[1].impact + a.factors[2].impact
                          + a.factors[3].impact + a.factors[4].impact + 65)
      && 255 <= a.ficoEquivalent <= 782
      && a.ficoEquivalent == (a.score as real * 0.85).Floor
  {
    var accounts := AccountsOf(doc);
    var txs := TransactionsOf(doc);
    var total := PreOffsetTotal(accounts, txs);
    var a := CalculateFactors(doc).value;
    ComputedAnalysis(doc);
    ReportedImpactsSum(accounts, txs);
    ScaledFields(a.score, a.ficoEquivalent, a.onChainScore, total);
  }

  /** The score fields computed from a pre-offset total in the scorer's range. */
  lemma ScaledFields(score: int, fico: int, onChain: int, total: int)
    requires 30 <= total <= 92 && score == total * 10
    requires fico == (score as real * 0.85).Floor && onChain == (score as real / 10.0).Floor
    ensures score % 10 == 0 && 300 <= score <= 920 && onChain * 10 == score && 255 <= fico <= 782
  {
    ScaledTotal(total);
  }

  /** A successful run's fields, in terms of the pre-offset total and the five factors. */
  lemma ComputedAnalysis(doc: PlaidDocument)
    requires !LacksDates(TransactionsOf(doc))
    ensures var accounts, txs := AccountsOf(doc), TransactionsOf(doc);
      var score := PreOffsetTotal(accounts, txs) * 10;
      CalculateFactors(doc).value == Analysis(score,
        [ PaymentHistoryFactor(txs), UtilizationFactor(accounts), DiversityFactor(accounts),
          IncomeStabilityFactor(txs), AccountAgeFactor(txs) ],
        (score as real * 0.85).Floor, 0, (score as real / 10.0).Floor, None)
  {
  }

  /** The reported impacts are the pre-offset impacts minus offsets totalling 65. */
  lemma ReportedImpactsSum(accounts: seq<Account>, txs: seq<Transaction>)
    ensures PaymentHistoryFactor(txs).impact + UtilizationFactor(accounts).impact
            + DiversityFactor(accounts).impact + IncomeStabilityFactor(txs).impact
            + AccountAgeFactor(txs).impact + 65 == PreOffsetTotal(accounts, txs)
  {
  }

  /** With no accounts and no transactions nothing raises: payment history defaults to 50,
      utilization to 0 and the diversity count to 0, for an overall score of 630. */
  lemma EmptyDocumentScore()
    ensures var r := CalculateFactors(PlaidDocument(None, None, true));
      && r.Success?
      && r.value.score == 630 && r.value.ficoEquivalent == 535 && r.value.onChainScore == 63
      && r.value.factors[0].percentage == 50
      && r.value.factors[1].percentage == 0
      && r.value.factors[2].percentage == 40
  {
    var txs: seq<Transaction> := [];
    assert WeightedImpact(PaymentHistoryScore(txs), 35) == 17;
    assert AccountKinds([]) == {};
  }

  /** One credit card at exactly 30% utilization and two transactions, one of them negative:
      the 30% lands in the 24-point band, payment history is 50% (impact 17), and the overall
      score is 590. The transactions must carry dates, or the oldest-date lookup raises. */
  lemma WorkedExample(card: Account, t1: Transaction, t2: Transaction)
    requires card == Account(Some(Balances(Some(-300.0), Some(1000.0))), Some("credit card"), None)
    requires t1 == Transaction(Some(50.0), Some("2024-01-02"), None, None, None)
    requires t2 == Transaction(Some(-20.0), Some("2024-01-03"), None, None, None)
    ensures var r := CalculateFactors(PlaidDocument(Some([card]), Some([t1, t2]), false));
      && r.Success?
      && r.value.score == 590 && r.value.ficoEquivalent == 501 && r.value.onChainScore == 59
      && r.value.factors[0].impact == 17 && r.value.factors[0].percentage == 50
      && r.value.factors[1].impact == -6 && r.value.factors[1].percentage == 30
      && r.value.factors[2].impact == -6
      && r.value.factors[3].impact == -8
      && r.value.factors[4].impact == -3
  {
    var doc := PlaidDocument(Some([card]), Some([t1, t2]), false);
    ExampleAccountFactors(card);
    ExampleTransactionFactors(t1, t2);
    assert AccountsOf(doc) == [card] && TransactionsOf(doc) == [t1, t2];
    assert IsDated(t1);
    ExampleScore();
  }

  /** 59 scaled by ten, then by 0.85 and by one tenth. */
  lemma ExampleScore()
    ensures ((59 * 10) as real * 0.85).Floor == 501 && ((59 * 10) as real / 10.0).Floor == 59
  {
  }

  /** The example's card: 300 used of a 1000 limit, one kind. */
  lemma ExampleAccountFactors(card: Account)
    requires card == Account(Some(Balances(Some(-300.0), Some(1000.0))), Some("credit card"), None)
    ensures Utilization([card]) == 30.0 && UtilizationBand(30.0) == Band(80, 24)
    ensures AccountKinds([card]) == {"credit card"}
    ensures UtilizationFactor([card]).impact == -6 && UtilizationFactor([card]).percentage == 30
    ensures DiversityFactor([card]).impact == -6
  {
    CreditTotalsAppend([], card);
    assert [] + [card] == [card];
    assert [card][1..] == [];
  }

  /** The example's transactions: one of two on time, no income, both present. */
  lemma ExampleTransactionFactors(t1: Transaction, t2: Transaction)
    requires t1 == Transaction(Some(50.0), Some("2024-01-02"), None, None, None)
    requires t2 == Transaction(Some(-20.0), Some("2024-01-03"), None, None, None)
    ensures PaymentHistoryScore([t1, t2]) == 50.0
    ensures IncomeStabilityScore([t1, t2]) == 50
    ensures PaymentHistoryFactor([t1, t2]).impact == 17 && PaymentHistoryFactor([t1, t2]).percentage == 50
    ensures IncomeStabilityFactor([t1, t2]).impact == -8
    ensures AccountAgeFactor([t1, t2]).impact == -3
  {
    assert OnTimeCount([t1, t2]) == 1 by {
      assert [t1, t2][1..] == [t2];
    }
    assert !IsIncomeTransaction(t1) && !IsIncomeTransaction(t2) by {
      assert Lower("") == "";
    }
    assert [t1, t2][1..] == [t2] && [t2][1..] == [];
  }

  /** The same two transactions without dates make the scorer raise. */
  lemma UndatedTransactionsRaise()
    ensures CalculateFactors(PlaidDocument(
      Some([Account(Some(Balances(Some(-300.0), Some(1000.0))), Some("credit card"), None)]),
      Some([Transaction(Some(50.0), None, None, None, None), Transaction(Some(-20.0), None, None, None, None)]),
      false)) == Failure(EmptyMinimum)
  {
  }

  /** An empty date string is falsy, so it is no date: transactions dated only `""` make `min()` raise. */
  lemma EmptyDateIsUndated(t: Transaction)
    requires t.date == Some("")
    ensures !IsDated(t) && LacksDates([t])
    ensures CalculateFactors(PlaidDocument(None, Some([t]), false)) == Failure(EmptyMinimum)
  {
  }

  /** Without a subtype an account's kind is its type, or `''` without either; a subtype wins over
      the type, so a checking account and a plain depository account are two kinds. */
  lemma DiversityKeyFallsBackToType()
    ensures DiversityKey(Account(None, None, Some("depository"))) == "depository"
    ensures DiversityKey(Account(None, None, None)) == ""
    ensures DiversityKey(Account(None, Some("checking"), Some("depository"))) == "checking"
    ensures |AccountKinds([Account(None, Some("checking"), Some("depository")), Account(None, None, Some("depository"))])| == 2
  {
    var accounts := [Account(None, Some("checking"), Some("depository")), Account(None, None, Some("depository"))];
    assert DiversityKey(accounts[0]) == "checking" && DiversityKey(accounts[1]) == "depository";
    assert AccountKinds(accounts) == {"checking", "depository"};
  }
}

=== FILE: holistic.dfy ===
/** The conversion of Plaid data into the "holistic" user record: a few filtered sums and
    counts, and fixed placeholders for everything Plaid does not provide. */
module Holistic {
  import opened Wrappers
  import opened Sequences
  import opened Text
  import opened Plaid

  /** The holistic user record, one field per JSON key. `isStudent` and `daoMember` hold the
      truthiness of their values (the conversion writes 0, the synthetic generator booleans). */
  datatype HolisticRecord = HolisticRecord(
    income: real,
    balance: real,
    utilization: real,
    accountAge: real,
    avgAccountAge: real,
    creditAccounts: int,
    loanAccounts: int,
    newAccounts: int,
    paymentHistory: real,
    fastFoodSpend: real,
    rentPaidLate: int,
    isStudent: bool,
    testScores: seq<real>,
    githubCommits: int,
    daoMember: bool,
    cryptoIncome: real,
    nftIncome: real,
    transactions: seq<Transaction>)

  /** `t.get('personal_finance_category', {}).get('primary') == 'INCOME'` */
  predicate IsIncomeCategory(t: Transaction)
  {
    t.financeCategory.Some? && t.financeCategory.value.primary == Some("INCOME")
  }

  /** The lower-cased `detailed` category (missing: empty) contains `fast_food`. */
  predicate IsFastFoodCategory(t: Transaction)
  {
    var detailed := match t.financeCategory case None => "" case Some(c) => c.detailed.GetOr("");
    Contains(Lower(detailed), "fast_food")
  }

  function IncomePart(t: Transaction): real
  {
    if IsIncomeCategory(t) then AmountOr0(t) else 0.0
  }

  function FastFoodPart(t: Transaction): real
  {
    if IsFastFoodCategory(t) then AmountOr0(t) else 0.0
  }

  function BalancePart(a: Account): real
  {
    if a.balances.Some? then CurrentOr0(a) else 0.0
  }

  predicate IsLoanAccount(a: Account)
  {
    a.subtype == Some("loan")
  }

  predicate IsDepositoryAccount(a: Account)
  {
    a.accountType == Some("depository")
  }

  /** What the conversion indexes without a default: the amount of every income and fast-food
      transaction, and the current balance of every account that has balances. */
  predicate ConvertibleDocument(doc: PlaidDocument)
  {
    && (forall i :: 0 <= i < |TransactionsOf(doc)| ==>
          (IsIncomeCategory(TransactionsOf(doc)[i]) || IsFastFoodCategory(TransactionsOf(doc)[i]))
          ==> TransactionsOf(doc)[i].amount.Some?)
    && (forall i :: 0 <= i < |AccountsOf(doc)| ==>
          AccountsOf(doc)[i].balances.Some? ==> AccountsOf(doc)[i].balances.value.current.Some?)
  }

  /** The fields the conversion fills with fixed values because Plaid does not supply them. */
  predicate HasPlaceholders(r: HolisticRecord)
  {
    && r.utilization == 0.0 && r.paymentHistory == 1.0
    && r.accountAge == 12.0 && r.avgAccountAge == 12.0
    && r.rentPaidLate == 0 && !r.isStudent && r.testScores == []
    && r.githubCommits == 0 && !r.daoMember && r.cryptoIncome == 0.0 && r.nftIncome == 0.0
  }

  /** The conversion. Income, fast-food spending and balance are filtered sums; the account
      counts are filtered counts; the transactions are carried over unchanged. */
  function Convert(doc: PlaidDocument): (r: HolisticRecord)
    requires ConvertibleDocument(doc)
    ensures HasPlaceholders(r)
    ensures r.transactions == TransactionsOf(doc)
    ensures 0 <= r.newAccounts <= |AccountsOf(doc)|
    ensures 0 <= r.creditAccounts && 0 <= r.loanAccounts
    ensures r.creditAccounts + r.loanAccounts <= |AccountsOf(doc)|
    ensures TransactionsOf(doc) == [] ==> r.income == 0.0 && r.fastFoodSpend == 0.0
    ensures AccountsOf(doc) == [] ==> r.balance == 0.0 && r.creditAccounts == 0 && r.loanAccounts == 0 && r.newAccounts == 0
  {
    var txs := TransactionsOf(doc);
    var accounts := AccountsOf(doc);
    CountByDisjoint(accounts, IsCreditCard, IsLoanAccount);
    HolisticRecord(
      SumBy(txs, IncomePart),
      SumBy(accounts, BalancePart),
      0.0, 12.0, 12.0,
      CountBy(accounts, IsCreditCard),
      CountBy(accounts, IsLoanAccount),
      CountBy(accounts, IsDepositoryAccount),
      1.0,
      SumBy(txs, FastFoodPart),
      0, false, [], 0, false, 0.0, 0.0,
      txs)
  }

  /** Income grows by a transaction's amount exactly when its primary category is INCOME;
      fast-food spending exactly when its detailed category mentions fast_food. */
  lemma TransactionSumsAppend(doc: PlaidDocument, t: Transaction)
    requires ConvertibleDocument(doc) && (IsIncomeCategory(t) || IsFastFoodCategory(t) ==> t.amount.Some?)
    ensures var more := PlaidDocument(doc.accounts, Some(TransactionsOf(doc) + [t]), doc.hasOtherKeys);
      && ConvertibleDocument(more)
      && Convert(more).income == Convert(doc).income + (if IsIncomeCategory(t) then t.amount.value else 0.0)
      && Convert(more).fastFoodSpend == Convert(doc).fastFoodSpend + (if IsFastFoodCategory(t) then t.amount.value else 0.0)
  {
    var txs := TransactionsOf(doc);
    var more := PlaidDocument(doc.accounts, Some(txs + [t]), doc.hasOtherKeys);
    assert TransactionsOf(more) == txs + [t];
    assert AccountsOf(more) == AccountsOf(doc);
    assert forall i :: 0 <= i < |txs| ==> (txs + [t])[i] == txs[i];
    SumByAppend(txs, [t], IncomePart);
    SumByAppend(txs, [t], FastFoodPart);
    assert SumBy([t], IncomePart) == IncomePart(t) + SumBy([t][1..], IncomePart);
    assert SumBy([t], FastFoodPart) == FastFoodPart(t) + SumBy([t][1..], FastFoodPart);
  }

  /** The balance grows by an account's current balance exactly when the account has balances. */
  lemma BalanceAppend(doc: PlaidDocument, a: Account)
    requires ConvertibleDocument(doc) && (a.balances.Some? ==> a.balances.value.current.Some?)
    ensures var more := PlaidDocument(Some(AccountsOf(doc) + [a]), doc.transactions, doc.hasOtherKeys);
      && ConvertibleDocument(more)
      && Convert(more).balance == Convert(doc).balance + (if a.balances.Some? then a.balances.value.current.value else 0.0)
  {
    var accounts := AccountsOf(doc);
    var more := PlaidDocument(Some(accounts + [a]), doc.transactions, doc.hasOtherKeys);
    assert AccountsOf(more) == accounts + [a];
    assert TransactionsOf(more) == TransactionsOf(doc);
    assert forall i :: 0 <= i < |accounts| ==> (accounts + [a])[i] == accounts[i];
    SumByAppend(accounts, [a], BalancePart);
    assert SumBy([a], BalancePart) == BalancePart(a) + SumBy([a][1..], BalancePart);
  }

  /** Each account count grows by one exactly when the new account has its subtype or type. */
  lemma AccountCountsAppend(doc: PlaidDocument, a: Account)
    requires ConvertibleDocument(doc) && (a.balances.Some? ==> a.balances.value.current.Some?)
    ensures var more := PlaidDocument(Some(AccountsOf(doc) + [a]), doc.transactions, doc.hasOtherKeys);
      && ConvertibleDocument(more)
      && Convert(more).creditAccounts == Convert(doc).creditAccounts + (if a.subtype == Some("credit card") then 1 else 0)
      && Convert(more).loanAccounts == Convert(doc).loanAccounts + (if a.subtype == Some("loan") then 1 else 0)
      && Convert(more).newAccounts == Convert(doc).newAccounts + (if a.accountType == Some("depository") then 1 else 0)
  {
    var accounts := AccountsOf(doc);
    var more := PlaidDocument(Some(accounts + [a]), doc.transactions, doc.hasOtherKeys);
    assert AccountsOf(more) == accounts + [a];
    assert TransactionsOf(more) == TransactionsOf(doc);
    assert forall i :: 0 <= i < |accounts| ==> (accounts + [a])[i] == accounts[i];
    CountByAppend(accounts, [a], IsCreditCard);
    CountByAppend(accounts, [a], IsLoanAccount);
    CountByAppend(accounts, [a], IsDepositoryAccount);
    assert [a][1..] == [];
  }
}

=== FILE: plaid.dfy ===
/** The Plaid-style JSON records the scripts read. A key that may be missing is an
    `Option`; the `.get(key, default)` defaults the scripts use are the accessors below. */
module Plaid {
  import opened Wrappers

  /** `balances`: `current` and `limit` may each be missing. */
  datatype Balances = Balances(current: Option<real>, limit: Option<real>)

  /** One account; `accountType` is the JSON key `type`. */
  datatype Account = Account(balances: Option<Balances>, subtype: Option<string>, accountType: Option<string>)

  /** `personal_finance_category`, with its `primary` and `detailed` labels. */
  datatype FinanceCategory = FinanceCategory(primary: Option<string>, detailed: Option<string>)

  /** One transaction. `category` holds the text Python's `str()` gives for the
      JSON value (a list of labels renders with its brackets and quotes). */
  datatype Transaction = Transaction(
    amount: Option<real>,
    date: Option<string>,
    category: Option<string>,
    financeCategory: Option<FinanceCategory>,
    paidLate: Option<bool>)

  /** A loaded JSON object: the two keys the scorer reads, and whether any other key is present. */
  datatype PlaidDocument = PlaidDocument(
    accounts: Option<seq<Account>>,
    transactions: Option<seq<Transaction>>,
    hasOtherKeys: bool)

  /** `plaid_data.get('accounts', [])` */
  function AccountsOf(doc: PlaidDocument): seq<Account>
  {
    doc.accounts.GetOr([])
  }

  /** `plaid_data.get('transactions', [])` */
  function TransactionsOf(doc: PlaidDocument): seq<Transaction>
  {
    doc.transactions.GetOr([])
  }

  /** Python truthiness of the loaded object: an empty JSON object is false. */
  function IsTruthy(doc: PlaidDocument): (truthy: bool)
    ensures !truthy <==> doc == PlaidDocument(None, None, false)
  {
    doc.accounts.Some? || doc.transactions.Some? || doc.hasOtherKeys
  }

  /** `acc.get('balances', {}).get('current', 0)` */
  function CurrentOr0(a: Account): real
  {
    match a.balances
    case None => 0.0
    case Some(b) => b.current.GetOr(0.0)
  }

  /** `acc.get('balances', {}).get('limit', 0)` */
  function LimitOr0(a: Account): real
  {
    match a.balances
    case None => 0.0
    case Some(b) => b.limit.GetOr(0.0)
  }

  /** `acc.get('subtype') == 'credit card'`, the test both the scorer and the conversion use. */
  predicate IsCreditCard(a: Account)
  {
    a.subtype == Some("credit card")
  }

  /** `tx.get('amount', 0)` */
  function AmountOr0(t: Transaction): real
  {
    t.amount.GetOr(0.0)
  }

  /** `str(tx.get('category', ''))` */
  function CategoryText(t: Transaction): string
  {
    t.category.GetOr("")
  }
}

=== FILE: quest_lines.dfy ===
/** Quests travel between processes as standard-output text: the engine prints each quest
    as a line `- <quest>`, and the web endpoint keeps the lines that start with `- ` and
    strips that prefix. */
module QuestLines {
  import opened Wrappers
  import opened Sequences
  import opened Text

  const QuestPrefix: string := "- "

  /** Index of the first line break in `s`, if any. */
  function FirstNewline(s: string): (r: Option<nat>)
    ensures r.Some? ==> r.value < |s| && s[r.value] == '\n' && '\n' !in s[..r.value]
    ensures r.None? ==> '\n' !in s
  {
    if |s| == 0 then None
    else if s[0] == '\n' then Some(0)
    else
      match FirstNewline(s[1..])
      case None => None
      case Some(i) =>
        assert s[..i + 1] == [s[0]] + s[1..][..i];
        Some(i + 1)
  }

  /** Python's `str.splitlines()` for `\n` separators: a final line break does not start a new line. */
  function SplitLines(s: string): (lines: seq<string>)
    decreases |s|
    ensures forall k :: 0 <= k < |lines| ==> '\n' !in lines[k]
  {
    if |s| == 0 then []
    else
      match FirstNewline(s)
      case None => [s]
      case Some(i) =>
        var rest := SplitLines(s[i + 1..]);
        [s[..i]] + rest
  }

  /** The text that printing each line (with its trailing line break) produces. */
  function Render(lines: seq<string>): (out: string)
    ensures out == "" <==> lines == []
    ensures lines != [] ==> out[|out| - 1] == '\n'
    ensures |out| >= |lines|
  {
    if |lines| == 0 then "" else lines[0] + "\n" + Render(lines[1..])
  }

  predicate IsQuestLine(line: string)
  {
    StartsWith(line, QuestPrefix)
  }

  /** Keeps the lines that start with `- `, without that prefix. */
  function KeepQuestLines(lines: seq<string>): (quests: seq<string>)
    ensures |quests| == CountBy(lines, IsQuestLine)
    ensures forall k :: 0 <= k < |quests| ==> QuestPrefix + quests[k] in lines
  {
    if |lines| == 0 then []
    else
      var rest := KeepQuestLines(lines[1..]);
      assert forall k :: 0 <= k < |rest| ==> QuestPrefix + rest[k] in lines by {
        forall k | 0 <= k < |rest| ensures QuestPrefix + rest[k] in lines {
          assert QuestPrefix + rest[k] in lines[1..];
        }
      }
      if IsQuestLine(lines[0]) then
        assert QuestPrefix + lines[0][2..] == lines[0] by {
          assert lines[0] == lines[0][..2] + lines[0][2..];
        }
        [lines[0][2..]] + rest
      else rest
  }

  /** The quest list the endpoint returns for the engine's standard output. */
  function ParseQuests(stdout: string): (quests: seq<string>)
    ensures |quests| <= |SplitLines(stdout)|
    ensures forall k :: 0 <= k < |quests| ==> QuestPrefix + quests[k] in SplitLines(stdout)
    ensures stdout == "" ==> quests == []
  {
    KeepQuestLines(SplitLines(stdout))
  }

  /** Each quest with `- ` in front. */
  function PrefixAll(quests: seq<string>): (lines: seq<string>)
    ensures |lines| == |quests|
    ensures forall k :: 0 <= k < |lines| ==> lines[k] == QuestPrefix + quests[k] && IsQuestLine(lines[k])
  {
    if |quests| == 0 then [] else [QuestPrefix + quests[0]] + PrefixAll(quests[1..])
  }

  /** `print('-', q)` for each quest, in order. */
  function PrintQuests(quests: seq<string>): (out: string)
    ensures out == "" <==> quests == []
    ensures quests != [] ==> StartsWith(out, QuestPrefix)
  {
    Render(PrefixAll(quests))
  }

  // ---------------------------------------------------------------- round trip

  lemma {:induction false} RenderAppend(a: seq<string>, b: seq<string>)
    ensures Render(a + b) == Render(a) + Render(b)
  {
    if |a| == 0 {
      assert a + b == b;
    } else {
      assert (a + b)[1..] == a[1..] + b;
      RenderAppend(a[1..], b);
    }
  }

  /** Splitting printed lines that contain no line break gives the lines back. */
  lemma {:induction false} SplitRenderedLines(lines: seq<string>)
    requires forall k :: 0 <= k < |lines| ==> '\n' !in lines[k]
    ensures SplitLines(Render(lines)) == lines
  {
    if |lines| > 0 {
      var s := Render(lines);
      var line := lines[0];
      assert s == line + "\n" + Render(lines[1..]);
      assert s[|line|] == '\n' && s[..|line|] == line;
      var i := FirstNewline(s).value;
      assert i == |line|;
      assert s[i + 1..] == Render(lines[1..]);
      SplitRenderedLines(lines[1..]);
      assert lines == [line] + lines[1..];
    }
  }

  /** Printing the split lines gives the text back, with a line break added after an
      unterminated last line: no text is lost by splitting. */
  lemma {:induction false} RenderSplitLines(s: string)
    decreases |s|
    ensures Render(SplitLines(s)) == if |s| > 0 && s[|s| - 1] != '\n' then s + "\n" else s
  {
    if |s| > 0 {
      match FirstNewline(s) {
        case None =>
          RenderUnbrokenLine(s);
        case Some(i) =>
          var rest := s[i + 1..];
          SplitAtFirstBreak(s, i);
          RenderSplitLines(rest);
          if |rest| > 0 {
            assert s[|s| - 1] == rest[|rest| - 1];
          }
      }
    }
  }

  /** Output whose last line has no break still yields that line's quest. */
  lemma UnterminatedQuestLine()
    ensures ParseQuests("- a") == ["a"]
  {
    assert FirstNewline("- a") == None by {
      assert '\n' !in "- a";
    }
    assert SplitLines("- a") == ["- a"];
    assert IsQuestLine("- a") && "- a"[2..] == "a";
  }

  /** A non-empty text without a line break is one line, printed with a break after it. */
  lemma RenderUnbrokenLine(s: string)
    requires |s| > 0 && '\n' !in s
    ensures Render(SplitLines(s)) == s + "\n" && s[|s| - 1] != '\n'
  {
    assert SplitLines(s) == [s];
    assert Render([s]) == s + "\n" + Render([]);
    assert s[|s| - 1] in s;
  }

  /** Splitting at the first break: the line before it, then the lines of the rest. */
  lemma SplitAtFirstBreak(s: string, i: nat)
    requires FirstNewline(s) == Some(i)
    ensures s == s[..i] + "\n" + s[i + 1..]
    ensures Render(SplitLines(s)) == s[..i] + "\n" + Render(SplitLines(s[i + 1..]))
  {
    assert s[i] == '\n';
    assert s == s[..i] + s[i..];
    assert s[i..] == "\n" + s[i + 1..];
    var rest := SplitLines(s[i + 1..]);
    var lines := [s[..i]] + rest;
    assert SplitLines(s) == lines;
    assert lines[0] == s[..i] && lines[1..] == rest;
  }

  /** Keeping quest lines distributes over concatenation: quests keep the order of their lines. */
  lemma {:induction false} KeepQuestLinesAppend(a: seq<string>, b: seq<string>)
    ensures KeepQuestLines(a + b) == KeepQuestLines(a) + KeepQuestLines(b)
  {
    if |a| == 0 {
      assert a + b == b;
    } else {
      assert (a + b)[1..] == a[1..] + b;
      KeepQuestLinesAppend(a[1..], b);
    }
  }

  /** Lines that do not start with `- ` yield no quest. */
  lemma {:induction false} NoQuestLines(lines: seq<string>)
    requires forall k :: 0 <= k < |lines| ==> !IsQuestLine(lines[k])
    ensures KeepQuestLines(lines) == []
  {
    if |lines| > 0 {
      NoQuestLines(lines[1..]);
    }
  }

  /** Prefixing adds no line break. */
  lemma {:induction false} PrefixAllKeepsLines(quests: seq<string>)
    requires forall k :: 0 <= k < |quests| ==> '\n' !in quests[k]
    ensures forall k :: 0 <= k < |PrefixAll(quests)| ==> '\n' !in PrefixAll(quests)[k]
  {
    if |quests| > 0 {
      PrefixAllKeepsLines(quests[1..]);
      assert '\n' !in QuestPrefix + quests[0];
    }
  }

  /** Stripping the prefix from printed quest lines gives the quests back. */
  lemma {:induction false} KeepPrefixedLines(quests: seq<string>)
    ensures KeepQuestLines(PrefixAll(quests)) == quests
  {
    if |quests| > 0 {
      var line := QuestPrefix + quests[0];
      var lines := PrefixAll(quests);
      assert lines == [line] + PrefixAll(quests[1..]);
      assert lines[1..] == PrefixAll(quests[1..]);
      KeepPrefixedLines(quests[1..]);
      StripQuestPrefix(quests[0]);
      assert KeepQuestLines(lines) == [quests[0]] + KeepQuestLines(lines[1..]);
      assert quests == [quests[0]] + quests[1..];
    }
  }

  /** A printed quest line is a quest line, and stripping its prefix gives the quest back. */
  lemma StripQuestPrefix(q: string)
    ensures IsQuestLine(QuestPrefix + q) && (QuestPrefix + q)[2..] == q
  {
    var line := QuestPrefix + q;
    assert line[..2] == QuestPrefix;
  }

  /** Printing quests after other output and parsing the result gives the quests back, provided no
      quest and no other line contains a line break and no other line starts with `- `. */
  lemma PrintThenParse(preamble: seq<string>, quests: seq<string>)
    requires forall k :: 0 <= k < |preamble| ==> '\n' !in preamble[k] && !IsQuestLine(preamble[k])
    requires forall k :: 0 <= k < |quests| ==> '\n' !in quests[k]
    ensures ParseQuests(Render(preamble) + PrintQuests(quests)) == quests
  {
    var printed := PrefixAll(quests);
    var lines := preamble + printed;
    PrefixAllKeepsLines(quests);
    assert forall k :: 0 <= k < |lines| ==> '\n' !in lines[k] by {
      forall k | 0 <= k < |lines| ensures '\n' !in lines[k] {
        if k < |preamble| { assert lines[k] == preamble[k]; } else { assert lines[k] == printed[k - |preamble|]; }
      }
    }
    RenderAppend(preamble, printed);
    assert Render(preamble) + PrintQuests(quests) == Render(lines);
    SplitRenderedLines(lines);
    assert ParseQuests(Render(lines)) == KeepQuestLines(lines);
    KeepQuestLinesAppend(preamble, printed);
    NoQuestLines(preamble);
    KeepPrefixedLines(quests);
    assert KeepQuestLines(lines) == [] + quests;
  }
}

=== FILE: quest_pipeline.dfy ===
/** How the pieces of the quest flow fit together: Plaid data is converted to a holistic record,
    loaded as a feature row, turned into quests, printed, and parsed back by the web endpoint. */
module QuestPipeline {
  import opened Wrappers
  import opened Text
  import opened Plaid
  import opened Holistic
  import opened Quests
  import opened QuestLines

  /** The printed text of each quest, in order. */
  function QuestMessages(quests: seq<Quest>): (messages: seq<string>)
    ensures |messages| == |quests|
    ensures forall k :: 0 <= k < |messages| ==> messages[k] == Message(quests[k])
  {
    if |quests| == 0 then [] else [Message(quests[0])] + QuestMessages(quests[1..])
  }

  /** Every quest text is a single line that the endpoint does not mistake for a quest line:
      it has no line break and does not start with `- `. */
  lemma MessageIsPlainLine(q: Quest)
    ensures '\n' !in Message(q)
    ensures !IsQuestLine(Message(q))
  {
    match q {
      case ReduceFastFood => ReduceFastFoodTextIsPlain();
      case PayRentOnTime => PayRentOnTimeTextIsPlain();
      case ReduceUtilization => ReduceUtilizationTextIsPlain();
      case ImprovePaymentHistory => ImprovePaymentHistoryTextIsPlain();
      case RaiseTestScores => RaiseTestScoresTextIsPlain();
      case ConnectGitHub => ConnectGitHubTextIsPlain();
      case JoinDao => JoinDaoTextIsPlain();
      case RaiseCryptoIncome => RaiseCryptoIncomeTextIsPlain();
      case RaiseNftIncome => RaiseNftIncomeTextIsPlain();
    }
    var m := Message(q);
    assert m[..2][0] == m[0];
  }

  // One literal per lemma: the texts are checked character by character, which is cheap for
  // one text at a time and expensive for all nine together.
  lemma ReduceFastFoodTextIsPlain()
    ensures '\n' !in Message(ReduceFastFood) && |Message(ReduceFastFood)| >= 2 && Message(ReduceFastFood)[0] != '-'
  {
  }

  lemma PayRentOnTimeTextIsPlain()
    ensures '\n' !in Message(PayRentOnTime) && |Message(PayRentOnTime)| >= 2 && Message(PayRentOnTime)[0] != '-'
  {
  }

  lemma ReduceUtilizationTextIsPlain()
    ensures '\n' !in Message(ReduceUtilization) && |Message(ReduceUtilization)| >= 2 && Message(ReduceUtilization)[0] != '-'
  {
  }

  lemma ImprovePaymentHistoryTextIsPlain()
    ensures '\n' !in Message(ImprovePaymentHistory) && |Message(ImprovePaymentHistory)| >= 2 && Message(ImprovePaymentHistory)[0] != '-'
  {
  }

  lemma RaiseTestScoresTextIsPlain()
    ensures '\n' !in Message(RaiseTestScores) && |Message(RaiseTestScores)| >= 2 && Message(RaiseTestScores)[0] != '-'
  {
  }

  lemma ConnectGitHubTextIsPlain()
    ensures '\n' !in Message(ConnectGitHub) && |Message(ConnectGitHub)| >= 2 && Message(ConnectGitHub)[0] != '-'
  {
  }

  lemma JoinDaoTextIsPlain()
    ensures '\n' !in Message(JoinDao) && |Message(JoinDao)| >= 2 && Message(JoinDao)[0] != '-'
  {
  }

  lemma RaiseCryptoIncomeTextIsPlain()
    ensures '\n' !in Message(RaiseCryptoIncome) && |Message(RaiseCryptoIncome)| >= 2 && Message(RaiseCryptoIncome)[0] != '-'
  {
  }

  lemma RaiseNftIncomeTextIsPlain()
    ensures '\n' !in Message(RaiseNftIncome) && |Message(RaiseNftIncome)| >= 2 && Message(RaiseNftIncome)[0] != '-'
  {
  }

  /** Length and tenth character of each quest text: enough to tell the nine apart. */
  function Signature(q: Quest): (nat, char)
  {
    match q
    case ReduceFastFood => (42, 's')
    case PayRentOnTime => (29, 'o')
    case ReduceUtilization => (35, 'e')
    case ImprovePaymentHistory => (33, 'a')
    case RaiseTestScores => (36, 't')
    case ConnectGitHub => (35, 'i')
    case JoinDao => (34, 'O')
    case RaiseCryptoIncome => (33, 'c')
    case RaiseNftIncome => (30, 'N')
  }

  lemma MessageSignature(q: Quest)
    ensures |Message(q)| >= 10 && (|Message(q)|, Message(q)[9]) == Signature(q)
  {
  }

  /** Different quests print differently. */
  lemma MessagesDistinct(q: Quest, other: Quest)
    requires q != other
    ensures Message(q) != Message(other)
  {
    MessageSignature(q);
    MessageSignature(other);
  }

  /** The endpoint recovers exactly the engine's quests, in order, from its printed report,
      whatever other lines precede them, so long as none of those starts with `- `. */
  lemma ReportRoundTrip(preamble: seq<string>, row: Features)
    requires forall k :: 0 <= k < |preamble| ==> '\n' !in preamble[k] && !IsQuestLine(preamble[k])
    ensures ParseQuests(Render(preamble) + PrintQuests(QuestMessages(GenerateQuests(row))))
            == QuestMessages(GenerateQuests(row))
  {
    var messages := QuestMessages(GenerateQuests(row));
    forall k | 0 <= k < |messages| ensures '\n' !in messages[k] {
      MessageIsPlainLine(GenerateQuests(row)[k]);
    }
    PrintThenParse(preamble, messages);
  }

  /** A record carrying the conversion's placeholders always gets the GitHub, DAO, crypto and NFT
      quests, never the utilization, payment-history or test-score quests, and is labelled creditworthy. */
  lemma PlaceholderQuests(rec: HolisticRecord)
    requires HasPlaceholders(rec) && Loadable(rec)
    ensures var quests := GenerateQuests(LoadFeatures(rec));
      && ConnectGitHub in quests && JoinDao in quests && RaiseCryptoIncome in quests && RaiseNftIncome in quests
      && ReduceUtilization !in quests && ImprovePaymentHistory !in quests && RaiseTestScores !in quests
    ensures LoadFeatures(rec).target == 1
  {
    var f := LoadFeatures(rec);
    assert f.githubCommits == 0 && f.daoMember == 0 && f.isStudent == 0;
    assert f.cryptoIncome == 0.0 && f.nftIncome == 0.0 && f.utilization == 0.0 && f.paymentHistory == 1.0;
  }

  /** The same for any Plaid document run through the conversion. */
  lemma ConvertedQuests(doc: PlaidDocument)
    requires ConvertibleDocument(doc) && Loadable(Convert(doc))
    ensures var quests := GenerateQuests(LoadFeatures(Convert(doc)));
      && ConnectGitHub in quests && JoinDao in quests && RaiseCryptoIncome in quests && RaiseNftIncome in quests
      && ReduceUtilization !in quests && ImprovePaymentHistory !in quests && RaiseTestScores !in quests
  {
    PlaceholderQuests(Convert(doc));
  }

  /** The fast-food spending the conversion writes is not what the loader uses: the loader recomputes it
      from the transactions' `category`, so spending recognised by the detailed Plaid category alone never
      raises the fast-food quest. */
  lemma FastFoodFieldIsRecomputed()
    ensures var t := Transaction(Some(250.0), Some("2024-01-02"), Some("Restaurants"),
                                 Some(FinanceCategory(None, Some("FAST_FOOD"))), None);
      var doc := PlaidDocument(None, Some([t]), true);
      && ConvertibleDocument(doc) && Loadable(Convert(doc))
      && Convert(doc).fastFoodSpend == 250.0
      && LoadFeatures(Convert(doc)).fastFoodSpend == 0.0
      && ReduceFastFood !in GenerateQuests(LoadFeatures(Convert(doc)))
  {
    var t := Transaction(Some(250.0), Some("2024-01-02"), Some("Restaurants"),
                         Some(FinanceCategory(None, Some("FAST_FOOD"))), None);
    assert Lower("FAST_FOOD") == "fast_food";
    assert IsFastFoodCategory(t) by {
      assert OccursAt("fast_food", "fast_food", 0);
    }
    assert !IsIncomeCategory(t);
    assert [t][1..] == [];
  }
}

=== FILE: quests.dfy ===
/** The quest engine: the per-user feature row derived from a holistic record, the creditworthiness
    label, and the nine fixed threshold rules that turn a row into recommended quests. */
module Quests {
  import opened Wrappers
  import opened Sequences
  import opened Plaid
  import opened Holistic
  import opened RealArith

  /** One feature row. Flags are 0/1 integers, as `int(...)` produces them. */
  datatype Features = Features(
    income: real,
    balance: real,
    utilization: real,
    accountAge: real,
    avgAccountAge: real,
    creditAccounts: int,
    loanAccounts: int,
    newAccounts: int,
    paymentHistory: real,
    fastFoodSpend: real,
    rentPaidLate: int,
    isStudent: int,
    testScoreAvg: real,
    githubCommits: int,
    daoMember: int,
    cryptoIncome: real,
    nftIncome: real,
    target: int)

  predicate IsFastFood(t: Transaction)
  {
    t.category == Some("Fast Food")
  }

  /** A rent transaction whose `paid_late` is true; a missing `paid_late` counts as false. */
  predicate IsLateRent(t: Transaction)
  {
    t.category == Some("Rent") && t.paidLate.GetOr(false)
  }

  function FastFoodAmount(t: Transaction): real
  {
    if IsFastFood(t) then AmountOr0(t) else 0.0
  }

  function Identity(x: real): real
  {
    x
  }

  /** The arithmetic mean, or 0 for no values. */
  function Mean(values: seq<real>): (m: real)
    ensures |values| == 0 ==> m == 0.0
    ensures |values| > 0 ==> m * |values| as real == SumBy(values, Identity)
  {
    if |values| == 0 then 0.0
    else
      QuotientTimesDivisor(SumBy(values, Identity), |values| as real);
      SumBy(values, Identity) / |values| as real
  }

  function BoolToInt(b: bool): int
  {
    if b then 1 else 0
  }

  /** What the loader indexes without a default: every transaction's category, and the amount
      of every fast-food transaction. */
  predicate Loadable(rec: HolisticRecord)
  {
    forall i :: 0 <= i < |rec.transactions| ==>
      rec.transactions[i].category.Some? && (IsFastFood(rec.transactions[i]) ==> rec.transactions[i].amount.Some?)
  }

  /** The feature row of one holistic record. Fast-food spending and late rent are recomputed from
      the transactions; the label is 1 for a payment history above 0.85 with utilization below 0.5. */
  function LoadFeatures(rec: HolisticRecord): (f: Features)
    requires Loadable(rec)
    ensures f.target == 0 || f.target == 1
    ensures f.target == 1 <==> rec.paymentHistory > 0.85 && rec.utilization < 0.5
    ensures f.rentPaidLate == 0 || f.rentPaidLate == 1
    ensures f.rentPaidLate == 1 <==>
      exists i :: 0 <= i < |rec.transactions| && rec.transactions[i].category == Some("Rent")
                                              && rec.transactions[i].paidLate == Some(true)
    ensures rec.testScores == [] ==> f.testScoreAvg == 0.0
    ensures rec.testScores != [] ==> f.testScoreAvg * |rec.testScores| as real == SumBy(rec.testScores, Identity)
    ensures f.fastFoodSpend == SumBy(rec.transactions, FastFoodAmount)
    ensures (forall i :: 0 <= i < |rec.transactions| ==> !IsFastFood(rec.transactions[i])) ==> f.fastFoodSpend == 0.0
    ensures f.isStudent == (if rec.isStudent then 1 else 0) && f.daoMember == (if rec.daoMember then 1 else 0)
    ensures f.utilization == rec.utilization && f.paymentHistory == rec.paymentHistory
    ensures f.githubCommits == rec.githubCommits
    ensures f.cryptoIncome == rec.cryptoIncome && f.nftIncome == rec.nftIncome
  {
    SumBySign(rec.transactions, FastFoodAmount);
    var txs := rec.transactions;
    var rentLate := CountBy(txs, IsLateRent) > 0;
    Features(
      rec.income, rec.balance, rec.utilization, rec.accountAge, rec.avgAccountAge,
      rec.creditAccounts, rec.loanAccounts, rec.newAccounts, rec.paymentHistory,
      SumBy(txs, FastFoodAmount),
      BoolToInt(rentLate),
      BoolToInt(rec.isStudent),
      Mean(rec.testScores),
      rec.githubCommits,
      BoolToInt(rec.daoMember),
      rec.cryptoIncome, rec.nftIncome,
      BoolToInt(rec.paymentHistory > 0.85 && rec.utilization < 0.5))
  }

  /** Loading a record with one more transaction adds its amount to the fast-food spending exactly
      when its category is "Fast Food". */
  lemma FastFoodAppend(rec: HolisticRecord, t: Transaction)
    requires Loadable(rec) && t.category.Some? && (IsFastFood(t) ==> t.amount.Some?)
    ensures var more := rec.(transactions := rec.transactions + [t]);
      && Loadable(more)
      && LoadFeatures(more).fastFoodSpend
         == LoadFeatures(rec).fastFoodSpend + (if t.category == Some("Fast Food") then t.amount.value else 0.0)
  {
    var txs := rec.transactions;
    assert forall i :: 0 <= i < |txs| ==> (txs + [t])[i] == txs[i];
    SumByAppend(txs, [t], FastFoodAmount);
    assert SumBy([t], FastFoodAmount) == FastFoodAmount(t) + SumBy([t][1..], FastFoodAmount);
  }

  /** A mean of values that are all at least `lo` is at least `lo`. */
  lemma MeanAtLeast(values: seq<real>, lo: real)
    requires |values| > 0
    requires forall i :: 0 <= i < |values| ==> lo <= values[i]
    ensures lo <= Mean(values)
  {
    var n := |values| as real;
    SumByAtLeast(values, Identity, lo);
    QuotientTimesDivisor(SumBy(values, Identity), n);
    ScaleCompare(lo, Mean(values), n);
  }

  // ---------------------------------------------------------------- quests

  /** The nine quests, in the order the rules are evaluated. */
  datatype Quest =
    | ReduceFastFood
    | PayRentOnTime
    | ReduceUtilization
    | ImprovePaymentHistory
    | RaiseTestScores
    | ConnectGitHub
    | JoinDao
    | RaiseCryptoIncome
    | RaiseNftIncome

  /** The text printed for each quest. The longer texts are written as two literals joined,
      which keeps proofs about their characters cheap. */
  function Message(q: Quest): string
  {
    match q
    case ReduceFastFood => "Reduce fast food " + "spending below $200/month"
    case PayRentOnTime => "Pay rent on time for 3 months"
    case ReduceUtilization => "Reduce credit " + "utilization below 30%"
    case ImprovePaymentHistory => "Improve payment " + "history above 90%"
    case RaiseTestScores => "Increase test score " + "average above 80"
    case ConnectGitHub => "Connect GitHub " + "and increase commits"
    case JoinDao => "Join a DAO " + "for financial diversity"
    case RaiseCryptoIncome => "Increase crypto " + "income above $500"
    case RaiseNftIncome => "Increase NFT income above $200"
  }

  /** Position of a quest's rule among the nine. */
  function Rank(q: Quest): nat
  {
    match q
    case ReduceFastFood => 0
    case PayRentOnTime => 1
    case ReduceUtilization => 2
    case ImprovePaymentHistory => 3
    case RaiseTestScores => 4
    case ConnectGitHub => 5
    case JoinDao => 6
    case RaiseCryptoIncome => 7
    case RaiseNftIncome => 8
  }

  /** Each quest's own condition on a feature row; flags count when non-zero, as Python truthiness has it. */
  predicate Triggered(row: Features, q: Quest)
  {
    match q
    case ReduceFastFood => row.fastFoodSpend > 200.0
    case PayRentOnTime => row.rentPaidLate != 0
    case ReduceUtilization => row.utilization > 0.3
    case ImprovePaymentHistory => row.paymentHistory < 0.9
    case RaiseTestScores => row.isStudent != 0 && row.testScoreAvg < 80.0
    case ConnectGitHub => row.githubCommits < 10
    case JoinDao => row.daoMember == 0
    case RaiseCryptoIncome => row.cryptoIncome < 500.0
    case RaiseNftIncome => row.nftIncome < 200.0
  }

  /** One rule: whether its test passed, and the quest it appends. */
  datatype Rule = Rule(fires: bool, quest: Quest)

  /** The quests in the order their rules run. */
  const QuestOrder: seq<Quest> :=
    [ ReduceFastFood, PayRentOnTime, ReduceUtilization, ImprovePaymentHistory, RaiseTestScores,
      ConnectGitHub, JoinDao, RaiseCryptoIncome, RaiseNftIncome ]

  /** The nine tests on a row, in the order they run. */
  function Rules(row: Features): seq<Rule>
  {
    seq(|QuestOrder|, i requires 0 <= i < |QuestOrder| => Rule(Triggered(row, QuestOrder[i]), QuestOrder[i]))
  }

  /** Runs the rules in order, appending the quest of each rule that fires. */
  function Collect(rules: seq<Rule>): (quests: seq<Quest>)
    ensures forall q :: q in quests <==> exists i :: 0 <= i < |rules| && rules[i].fires && rules[i].quest == q
  {
    if |rules| == 0 then []
    else
      var rest := Collect(rules[1..]);
      assert forall i :: 0 <= i < |rules[1..]| ==> rules[1..][i] == rules[i + 1];
      (if rules[0].fires then [rules[0].quest] else []) + rest
  }

  /** The rule at position `i` of the table is the one for the quest of rank `i`. */
  lemma RulesRanked(row: Features)
    ensures |Rules(row)| == 9
    ensures forall i :: 0 <= i < 9 ==> Rank(Rules(row)[i].quest) == i
    ensures forall q :: Rules(row)[Rank(q)].quest == q && (Rules(row)[Rank(q)].fires <==> Triggered(row, q))
  {
  }

  /** The quests recommended for a row: exactly those whose own condition holds. */
  function GenerateQuests(row: Features): (quests: seq<Quest>)
    ensures forall q :: q in quests <==> Triggered(row, q)
  {
    RulesRanked(row);
    Collect(Rules(row))
  }

  /** Quests whose ranks strictly increase along the sequence. */
  predicate InRuleOrder(quests: seq<Quest>)
  {
    forall i, j :: 0 <= i < j < |quests| ==> Rank(quests[i]) < Rank(quests[j])
  }

  /** Rules listed in increasing rank yield quests in increasing rank. */
  lemma {:induction false} CollectInRuleOrder(rules: seq<Rule>)
    requires forall i, j :: 0 <= i < j < |rules| ==> Rank(rules[i].quest) < Rank(rules[j].quest)
    ensures InRuleOrder(Collect(rules))
  {
    if |rules| > 0 {
      var rest := rules[1..];
      assert forall i :: 0 <= i < |rest| ==> rest[i] == rules[i + 1];
      CollectInRuleOrder(rest);
      var head := if rules[0].fires then [rules[0].quest] else [];
      var tail := Collect(rest);
      forall q | q in tail ensures Rank(rules[0].quest) < Rank(q) {
        var i :| 0 <= i < |rest| && rest[i].fires && rest[i].quest == q;
      }
      assert Collect(rules) == head + tail;
      forall i, j | 0 <= i < j < |head + tail| ensures Rank((head + tail)[i]) < Rank((head + tail)[j]) {
        if i >= |head| {
          assert (head + tail)[i] == tail[i - |head|] && (head + tail)[j] == tail[j - |head|];
        } else {
          assert (head + tail)[j] == tail[j - 1] && tail[j - 1] in tail;
        }
      }
    }
  }

  /** Strictly increasing ranks below nine leave room for at most nine entries. */
  lemma {:induction false} RanksBoundLength(quests: seq<Quest>)
    requires InRuleOrder(quests)
    ensures forall i :: 0 <= i < |quests| ==> Rank(quests[i]) >= i
    ensures |quests| <= 9
  {
    if |quests| > 0 {
      var init := quests[..|quests| - 1];
      assert forall i :: 0 <= i < |init| ==> init[i] == quests[i];
      assert InRuleOrder(init);
      RanksBoundLength(init);
      if |quests| > 1 {
        assert Rank(quests[|quests| - 2]) < Rank(quests[|quests| - 1]);
      }
      assert Rank(quests[|quests| - 1]) <= 8;
    }
  }

  /** The quests come out in the order of the rules, hence without duplicates and at most nine. */
  lemma QuestsInRuleOrder(row: Features)
    ensures InRuleOrder(GenerateQuests(row))
    ensures forall i, j :: 0 <= i < j < |GenerateQuests(row)| ==> GenerateQuests(row)[i] != GenerateQuests(row)[j]
    ensures |GenerateQuests(row)| <= 9
  {
    RulesRanked(row);
    CollectInRuleOrder(Rules(row));
    var quests := GenerateQuests(row);
    RanksBoundLength(quests);
    forall i, j | 0 <= i < j < |quests| ensures quests[i] != quests[j] {
      assert Rank(quests[i]) < Rank(quests[j]);
    }
  }

  /** The thresholds are strict: a value exactly at a threshold does not fire its rule. */
  lemma ThresholdsAreStrict(row: Features)
    requires row.fastFoodSpend == 200.0 && row.utilization == 0.3 && row.paymentHistory == 0.9
    requires row.githubCommits == 10 && row.cryptoIncome == 500.0 && row.nftIncome == 200.0
    requires row.isStudent != 0 && row.testScoreAvg == 80.0
    ensures forall q :: q in GenerateQuests(row) ==> q == PayRentOnTime || q == JoinDao
  {
  }

  /** A row that fires neither the utilization nor the payment-history quest is labelled creditworthy. */
  lemma NoCreditQuestsMeansCreditworthy(rec: HolisticRecord)
    requires Loadable(rec)
    requires ReduceUtilization !in GenerateQuests(LoadFeatures(rec))
    requires ImprovePaymentHistory !in GenerateQuests(LoadFeatures(rec))
    ensures LoadFeatures(rec).target == 1
  {
    assert !Triggered(LoadFeatures(rec), ReduceUtilization);
    assert !Triggered(LoadFeatures(rec), ImprovePaymentHistory);
  }

  /** A student whose test scores are all at least 80 gets no test-score quest; a student with no
      test scores at all averages 0 and always gets it. */
  lemma TestScoreQuest(rec: HolisticRecord)
    requires Loadable(rec) && rec.isStudent
    ensures rec.testScores == [] ==> RaiseTestScores in GenerateQuests(LoadFeatures(rec))
    ensures rec.testScores != [] && (forall i :: 0 <= i < |rec.testScores| ==> rec.testScores[i] >= 80.0)
      ==> RaiseTestScores !in GenerateQuests(LoadFeatures(rec))
  {
    var f := LoadFeatures(rec);
    if rec.testScores != [] && (forall i :: 0 <= i < |rec.testScores| ==> rec.testScores[i] >= 80.0) {
      MeanAtLeast(rec.testScores, 80.0);
      assert !Triggered(f, RaiseTestScores);
    }
    if rec.testScores == [] {
      assert Triggered(f, RaiseTestScores);
    }
  }
}

=== FILE: real_arith.dfy ===
/** Small facts about `real` multiplication, division and truncation that the
    solver does not find on its own. */
module RealArith {

  lemma ProductCast(q: int, b: int)
    ensures (q * b) as real == q as real * b as real
  {
  }

  lemma ProductPositive(a: real, b: real)
    requires a > 0.0 && b > 0.0
    ensures a * b > 0.0
  {
  }

  /** Dividing by a positive number and multiplying back is the identity. */
  lemma QuotientTimesDivisor(a: real, b: real)
    requires b > 0.0
    ensures a / b * b == a
  {
  }

  /** Comparisons survive multiplication by a positive factor. */
  lemma ScaleCompare(x: real, y: real, b: real)
    requires b > 0.0
    ensures x <= y <==> x * b <= y * b
    ensures x < y <==> x * b < y * b
  {
    if x < y { ProductPositive(y - x, b); }
    if y < x { ProductPositive(x - y, b); }
  }

  /** Truncating an exact quotient of non-negative integers agrees with integer division. */
  lemma FloorOfQuotient(a: int, b: int)
    requires a >= 0 && b > 0
    ensures (a as real / b as real).Floor == a / b
  {
    var q := a / b;
    var x := a as real / b as real;
    var br := b as real;
    QuotientTimesDivisor(a as real, br);
    ProductCast(q, b);
    ProductCast(q + 1, b);
    assert q * b <= a < (q + 1) * b;
    assert (q as real) * br <= x * br;
    assert x * br < ((q + 1) as real) * br;
    ScaleCompare(q as real, x, br);
    ScaleCompare(x, (q + 1) as real, br);
  }

  /** A share of a positive whole lies between 0 and 1. */
  lemma ShareBetweenZeroAndOne(part: real, whole: real)
    requires 0.0 <= part <= whole && whole > 0.0
    ensures 0.0 <= part / whole <= 1.0
  {
    QuotientTimesDivisor(part, whole);
    ScaleCompare(0.0, part / whole, whole);
    ScaleCompare(part / whole, 1.0, whole);
  }

  /** When `s` is the percentage `100 k / n`, `s` reaches 600/7 exactly when `k` reaches six sevenths of `n`. */
  lemma SixSevenths(s: real, n: real, k: real)
    requires n > 0.0 && s * n == 100.0 * k
    ensures 7.0 * s >= 600.0 <==> 7.0 * k >= 6.0 * n
  {
    ScaleCompare(600.0, 7.0 * s, n);
  }

  /** When `s` is the percentage `100 k / n`, `s` reaches 90 exactly when `k` reaches nine tenths of `n`. */
  lemma NineTenths(s: real, n: real, k: real)
    requires n > 0.0 && s * n == 100.0 * k
    ensures s >= 90.0 <==> 10.0 * k >= 9.0 * n
  {
    ScaleCompare(90.0, s, n);
  }

  /** An overall score of ten times `total`, for `total` in the scorer's range, truncates back to
      `total` on division by ten and to 255..782 on scaling by 0.85. */
  lemma ScaledTotal(total: int)
    requires 30 <= total <= 92
    ensures ((total * 10) as real / 10.0).Floor == total
    ensures 255 <= ((total * 10) as real * 0.85).Floor <= 782
  {
    assert (total * 10) as real == total as real * 10.0;
    assert 255.0 <= (total * 10) as real * 0.85 < 783.0;
  }

  /** A real that is exactly `m / n` for whole numbers truncates to the integer quotient. */
  lemma FloorOfExactShare(s: real, m: int, n: int)
    requires m >= 0 && n > 0 && s * n as real == m as real
    ensures s.Floor == m / n
  {
    var nr := n as real;
    QuotientTimesDivisor(m as real, nr);
    assert (s - m as real / nr) * nr == 0.0;
    ScaleCompare(s, m as real / nr, nr);
    FloorOfQuotient(m, n);
  }
}

=== FILE: sequences.dfy ===
/** Filtered counts and sums over sequences: the `sum(... for x in s if ...)` and
    `len([x for x in s if ...])` shapes the scripts are built from. */
module Sequences {

  /** Number of elements of `s` that satisfy `p`. */
  function CountBy<T>(s: seq<T>, p: T -> bool): (n: nat)
    ensures n <= |s|
    ensures n == 0 <==> forall i :: 0 <= i < |s| ==> !p(s[i])
  {
    if |s| == 0 then 0
    else (if p(s[0]) then 1 else 0) + CountBy(s[1..], p)
  }

  /** Sum of `f` over `s`, accumulated left to right from zero. */
  function SumBy<T>(s: seq<T>, f: T -> real): real
  {
    if |s| == 0 then 0.0 else f(s[0]) + SumBy(s[1..], f)
  }

  /** Counting distributes over concatenation. */
  lemma {:induction false} CountByAppend<T>(a: seq<T>, b: seq<T>, p: T -> bool)
    ensures CountBy(a + b, p) == CountBy(a, p) + CountBy(b, p)
  {
    if |a| == 0 {
      assert a + b == b;
    } else {
      assert (a + b)[1..] == a[1..] + b;
      CountByAppend(a[1..], b, p);
    }
  }

  /** Summing distributes over concatenation. */
  lemma {:induction false} SumByAppend<T>(a: seq<T>, b: seq<T>, f: T -> real)
    ensures SumBy(a + b, f) == SumBy(a, f) + SumBy(b, f)
  {
    if |a| == 0 {
      assert a + b == b;
    } else {
      assert (a + b)[1..] == a[1..] + b;
      SumByAppend(a[1..], b, f);
    }
  }

  /** A sum of terms that are each at least `lo` is at least `lo` times their number. */
  lemma {:induction false} SumByAtLeast<T>(s: seq<T>, f: T -> real, lo: real)
    requires forall i :: 0 <= i < |s| ==> lo <= f(s[i])
    ensures lo * |s| as real <= SumBy(s, f)
  {
    if |s| > 0 {
      assert forall i :: 0 <= i < |s[1..]| ==> s[1..][i] == s[i + 1];
      SumByAtLeast(s[1..], f, lo);
      assert lo * |s| as real == lo + lo * |s[1..]| as real;
    }
  }

  /** Two predicates that never hold together count at most the whole sequence. */
  lemma {:induction false} CountByDisjoint<T>(s: seq<T>, p: T -> bool, q: T -> bool)
    requires forall i :: 0 <= i < |s| ==> !(p(s[i]) && q(s[i]))
    ensures CountBy(s, p) + CountBy(s, q) <= |s|
  {
    if |s| > 0 {
      assert forall i :: 0 <= i < |s[1..]| ==> s[1..][i] == s[i + 1];
      CountByDisjoint(s[1..], p, q);
    }
  }

  /** A sum of zero terms is zero, and a sum of non-negative terms is non-negative. */
  lemma {:induction false} SumBySign<T>(s: seq<T>, f: T -> real)
    ensures (forall i :: 0 <= i < |s| ==> f(s[i]) == 0.0) ==> SumBy(s, f) == 0.0
    ensures (forall i :: 0 <= i < |s| ==> f(s[i]) >= 0.0) ==> SumBy(s, f) >= 0.0
  {
    if |s| > 0 {
      assert forall i :: 0 <= i < |s[1..]| ==> s[1..][i] == s[i + 1];
      SumBySign(s[1..], f);
    }
  }
}

=== FILE: text.dfy ===
/** The few string operations the scripts use: `str.lower()`, the substring test
    `sub in s` (equivalently `s.find(sub) != -1`) and `str.startswith`. */
module Text {

  /** Python's `lower()` on one character, for the ASCII letters. */
  function LowerChar(c: char): char
  {
    if 'A' <= c <= 'Z' then (c as int + 32) as char else c
  }

  /** Python's `s.lower()`, character by character. */
  function Lower(s: string): (r: string)
    ensures |r| == |s|
    ensures forall i :: 0 <= i < |r| ==> !('A' <= r[i] <= 'Z')
    ensures forall i :: 0 <= i < |s| ==> 'A' <= s[i] <= 'Z' ==> r[i] as int == s[i] as int + 32
    ensures forall i :: 0 <= i < |s| ==> !('A' <= s[i] <= 'Z') ==> r[i] == s[i]
  {
    seq(|s|, i requires 0 <= i < |s| => LowerChar(s[i]))
  }

  /** `s.startswith(p)`. */
  predicate StartsWith(s: string, p: string)
  {
    |p| <= |s| && s[..|p|] == p
  }

  /** `sub` occurs in `s` starting at index `i`. */
  predicate OccursAt(s: string, sub: string, i: nat)
  {
    i + |sub| <= |s| && s[i..i + |sub|] == sub
  }

  /** Python's `sub in s`, scanning `s` from the left. */
  function Contains(s: string, sub: string): (found: bool)
    decreases |s|
    ensures found <==> exists i: nat :: OccursAt(s, sub, i)
  {
    if |s| < |sub| then false
    else if s[..|sub|] == sub then
      assert OccursAt(s, sub, 0);
      true
    else
      var rest := Contains(s[1..], sub);
      assert forall i: nat :: OccursAt(s[1..], sub, i) <==> OccursAt(s, sub, i + 1) by {
        forall i: nat ensures OccursAt(s[1..], sub, i) <==> OccursAt(s, sub, i + 1) {
          if i + |sub| <= |s[1..]| {
            assert s[1..][i..i + |sub|] == s[i + 1..i + 1 + |sub|];
          }
        }
      }
      assert !OccursAt(s, sub, 0);
      assert (exists i: nat :: OccursAt(s, sub, i)) ==> exists i: nat :: OccursAt(s[1..], sub, i) by {
        if exists i: nat :: OccursAt(s, sub, i) {
          var i: nat :| OccursAt(s, sub, i);
          assert i > 0;
          assert OccursAt(s[1..], sub, i - 1);
        }
      }
      rest
  }
}

=== FILE: wrappers.dfy ===
/** Optional values and results, used for JSON keys that may be absent and for
    operations that can raise. */
module Wrappers {

  datatype Option<+T> = None | Some(value: T) {

    /** The encapsulated value, or `default` when absent (Python's `dict.get(key, default)`). */
    function GetOr(default: T): T {
      match this
      case Some(v) => v
      case None => default
    }
  }

  datatype Result<+R, +E> = Success(value: R) | Failure(error: E)
}
